=== FILE: README.md ===
# Commission tracker: a verified Dafny model

This project models the core of a small commission tracker. The tracker has three layers, and each is modelled as pure functions:

- **Entry store** (`backend/database.js`). The SQLite `entries` table is a sequence of rows in insertion order plus the next AUTOINCREMENT id. Each row holds an id, the six business fields (client, date, product, commission, forecast, status) and `created_at`. Every query and statement is a function from the table to its result: create, batch create, get by id, update, delete, list all, list by month and the upcoming-payment notifications.
- **REST handlers** (`backend/server.js`). `Server.Handle` takes the table, an environment and a request, and returns the new table and a response (status code plus body). This layer holds the validation rule: all six fields must be JavaScript-truthy.
- **Browser helpers** (`script.js`). This layer covers:
  - the month filter that the spreadsheet and the monthly total share;
  - `calculateDaysLeft` and the days-left badge;
  - the status class and label;
  - the batch form's rows, including the guard that a remove click never empties the form;
  - the row-to-entry conversion done by `saveBatch`.

Conventions:

- A date is a day number: the count of days since 1970-01-01 in the proleptic Gregorian calendar.
- `Calendar.CivilFromDays` converts a day number to year, month and day. It supplies the month written in the date: the two-digit month that `strftime('%m', …)` prints, which is also what `getMonth() + 1` returns at UTC and east of it (see Findings for west of UTC).
- ISO `YYYY-MM-DD` strings are zero-padded, so ordering them as strings (SQL `ORDER BY date`, `BETWEEN`) is the same as ordering their day numbers.
- Commissions are integer cents.

`Server.Env` supplies whatever the handlers read from outside the table:

- `now`, the value `CURRENT_TIMESTAMP` stores;
- `today`, the UTC day `date('now')` names;
- `daysUntil`, the `differenceInDays(parseISO(forecast), new Date())` value;
- `storageFails`, which says whether the storage call reports an error.

A request body is a `Server.Draft` with six optional fields. `None` means the property is missing or null. For the two dates, `None` also covers the empty string.

Three behaviours of the code are worth stating explicitly:

- **Notification window.** The query admits forecasts from today through `date(today + 15 days, '+15 days')`, so the window is 30 days. A pending entry whose forecast is already past is not reported. The comment at backend/database.js:88 ("15 dias no futuro") names a 15-day horizon, but the date expression applies the 15 days twice, and the model follows the expression.
- **PUT on a missing id.** The code has no 404 here: it answers 200 and echoes the path id and the body.
- **Negative commissions.** Validation checks truthiness only, so a negative commission is accepted. Of numeric commissions, only 0 is refused.

## Model

| member | source | states |
|---|---|---|
| Calendar.MonthOf | backend/database.js:33 | the month of any date lies in 1..12 |
| JsText.PaddedMatchesTwoDigits | backend/database.js:35 | `String(m).padStart(2, '0')` equals the two-digit text of k exactly when m equals k, for every integer m (negative, one, two or more digits) |
| JsText.IntToStringInjective | script.js:92 | two integers that print the same are equal |
| Database.GetEntryById | backend/database.js:38-40 | nothing is found exactly when no row has the id; otherwise the result is a table row with that id, and in a valid table it is the only one |
| Database.CreateEntry | backend/database.js:42-51 | the insert adds one row at the end with the six given fields and the creation time, under an id above every existing id, and the table stays valid |
| DatabaseProperties.CreateThenGet | backend/database.js:38-51 | fetching the id a create returned gives back the six fields, that id and the creation time; lookups of other ids are unaffected |
| Database.CreateBatchEntries | backend/database.js:53-71 | an empty list fails and adds nothing; otherwise all n entries are appended in list order under n consecutive fresh ids, n rows are reported changed, and the table stays valid |
| DatabaseProperties.BatchThenGet | backend/database.js:53-71 | after a batch, the i-th entry is found under the i-th fresh id, which is above every id the table had |
| Database.UpdateEntry | backend/database.js:73-80 | only the rows with that id get the six new fields; ids, creation times and the other rows are unchanged; an absent id leaves the table as it was |
| DatabaseProperties.UpdateThenGet | backend/database.js:73-80 | after an update a lookup of the id returns the old row with the new fields; lookups of other ids are unaffected |
| Database.DeleteEntry | backend/database.js:82-84 | exactly the rows with that id are gone, the others keep their multiplicity and order, and an absent id leaves the table as it was |
| DatabaseProperties.DeleteThenGet | backend/database.js:82-84 | after a delete the id is not found, and lookups of other ids are unaffected |
| Database.GetAllEntries | backend/database.js:26-28 | the listing is a permutation of the table, ordered by date, newest first |
| Database.MonthTextMatches | backend/database.js:33-35 | the strftime month text equals the padded parameter exactly when the parameter is in 1..12 and is the row's month |
| Database.GetEntriesByMonth | backend/database.js:30-36 | the result holds exactly the rows of that month, each as often as in the table, newest first; a month outside 1..12 gives nothing |
| Database.MonthsReconstructAll | backend/database.js:26-36 | the twelve month queries together return every row exactly as often as the full listing |
| Database.Classify | backend/database.js:108 | a notification is 'danger' exactly when daysLeft <= 0, otherwise 'warning' |
| Database.GetUpcomingNotifications | backend/database.js:86-113 | every pending row whose forecast lies in [today, today + 30] is reported; the list is ordered by forecast ascending; every forecast lies in the window; each notice carries its row's daysLeft and the matching kind; ids are distinct in a valid table |
| Database.NotificationsFromUpcomingRows | backend/database.js:90-110 | every notice is built from a pending table row in the window, with that row's id, client and forecast |
| DatabaseProperties.WindowBounds | backend/database.js:87-95 | a pending row is reported exactly when its forecast is between today and today + 30 days, so yesterday's forecast is not reported and one 20 days ahead is |
| Server.ListRoute | backend/server.js:14-27 | GET /entries answers 200 with a date-descending permutation of the table, or 500 on a storage error; the table is unchanged |
| Server.FetchRoute | backend/server.js:29-46 | GET /entries/:id answers 404 for an absent id and 200 with the row carrying the id otherwise, or 500 on a storage error |
| Server.CreateRoute | backend/server.js:48-68 | a body with any falsy field gets 400 and no change; otherwise a storage error gets 500 and no change, and success gets 201 with the new id and the submitted fields, with that row appended |
| Server.BatchRoute | backend/server.js:70-96 | a non-array or empty body gets 400; any incomplete element gets 400; a storage error gets 500; in all three cases nothing is added; success gets 201 with count n and appends all n entries; the table either stays as it was or grows by n |
| Server.ReplaceRoute | backend/server.js:98-119 | same validation as create; success answers 200 echoing the path id and the body, whether or not the id exists, and replaces the fields of exactly the rows with that id |
| Server.RemoveRoute | backend/server.js:121-136 | DELETE answers 200 with `{success: true}` whether or not the id existed, and the id is gone; a storage error gives 500 and no change |
| Server.NotificationsRoute | backend/server.js:138-151 | GET /notifications answers 200 with the notification list, or 500 on a storage error; the table is unchanged |
| Server.Handle | backend/server.js:14-151 | every answer is 200, 201, 400, 404 or 500; a non-2xx answer and every GET leave the table unchanged; validity is preserved; the next id never decreases; every row afterwards either existed before (by id) or has a fresh id |
| ServerProperties.RunKeepsInvariant | backend/database.js:13-20 | over any sequence of requests the table stays valid and the next id never decreases; every final row either has an id that was fresh at the start, or has an id that existed at the start and keeps that row's created_at |
| ServerProperties.HandleKeepsCreationTimes | backend/database.js:20 | no request changes the created_at of an id it keeps: the UPDATE never sets it, and an insert only uses fresh ids |
| ServerProperties.NoIdReused | backend/database.js:13 | between any two moments of a run the next id does not decrease, and every later row either existed at the earlier moment (with the same created_at) or has an id that was still fresh then; so an id deleted in between never comes back |
| ServerProperties.ReachableValid | backend/database.js:11-22 | every table reachable from the freshly created empty table by any requests is valid, so the round-trip properties apply to it |
| ServerProperties.CreateThenFetch | backend/server.js:48-62 | POST of a complete body, then GET of the returned id, returns the stored row with the submitted fields |
| ServerProperties.RemoveThenFetch | backend/server.js:121-131 | DELETE, then GET of the same id, answers 404 |
| ServerProperties.ValidationBeforeStorage | backend/server.js:53-57 | an incomplete body gets 400 on POST and PUT with no change, whether or not storage would fail |
| ServerProperties.ZeroCommissionRejected | backend/server.js:53-83 | a numeric commission of 0 counts as missing: POST answers 400 with the missing-fields message, and any batch containing such an entry answers 400 with the batch message; the table is unchanged in both cases |
| ServerProperties.BatchAllOrNothing | backend/server.js:79-91 | a batch either changes nothing or answers 201 with count n, after which every entry is found under its own fresh id |
| ServerProperties.ReplaceMissingIdEchoes | backend/server.js:108-114 | PUT on an absent id with a complete body answers 200 with the echo and leaves the table unchanged |
| Client.FilterByMonth | script.js:89-94 | month '0' keeps every entry; otherwise the result is an order-preserving sub-list holding exactly the entries whose month prints as the selection, each as often as in the input |
| Client.SelectedMonthShowsThatMonth | script.js:89-94 | selecting month k in 1..12 shows exactly the entries dated in month k |
| Client.UnknownSelectionShowsNothing | script.js:89-94 | a selection that is neither '0' nor the printed form of a month 1..12 (such as '03' or '13') shows nothing |
| Client.FilterKeepsDateOrder | script.js:89-94 | filtering a newest-first list keeps it newest first |
| Client.MonthlyTotal | script.js:145-156 | the total of an empty filtered list is 0 |
| Client.TotalMatchesTable | script.js:145-155 | the monthly total adds the commission of exactly the entries the table shows for the same selection |
| Client.AllMonthsTotalIsSumOfMonths | script.js:145-155 | the total for all months equals the sum of the twelve monthly totals |
| Client.CeilDays | script.js:171 | the result is the least whole number of days covering the given milliseconds |
| Client.CalculateDaysLeft | script.js:166-172 | corrected days-left: with the forecast read as local midnight, the result is forecast minus today in every time zone |
| Client.CalculateDaysLeftAsWritten | script.js:166-172 | as written: forecast minus today at UTC and west of it, and one day more east of UTC |
| Client.DaysLeftBadge | script.js:114-125 | the badge is red with "Vencido" exactly when daysLeft <= 0, yellow exactly for 1..15 and green exactly above 15, so exactly one case applies; a positive count reads "<n> dias" |
| Client.StatusClass | script.js:186-193 | each of pendente, concluido and cancelado maps to "status-" followed by itself, and every other value maps to '' |
| Client.StatusText | script.js:196-203 | pendente, concluido and cancelado are labelled "Pendente", "Concluído" and "Cancelado"; an unknown status is shown unchanged; each label differs from its key, has the same length and is not itself a status key |
| Client.StatusCellIdentifiesStatus | script.js:186-203 | the pair of class and label determines the status |
| Client.StatusLabelAmbiguous | script.js:196-203 | the label alone does not: unknown 'Pendente' reads like 'pendente' and differs only in class |
| Client.LocalDayOfUtcMidnight | script.js:91 | UTC midnight of a date falls on the same local day at UTC and east of it, and on the previous local day west of it |
| Client.FilterByMonthAsWritten | script.js:89-94 | as written: month "0" returns the rows unchanged; otherwise an order-preserving sub-list keeping, as often as in the input, exactly the entries whose date's UTC midnight, read in local time, has a month that prints as the selection |
| Client.AsWrittenAgreesEastOfUtc | script.js:91 | at UTC and east of it the written filter equals the corrected one |
| Client.FirstOfMonthMisfiledWestOfUtc | script.js:91 | at UTC-3 an entry dated 2024-03-01 is missing when March is selected, while the corrected filter shows it |
| Client.DueTodayNotOverdueEastOfUtc | script.js:166-171 | at UTC+1 a forecast of today gives 1 day left and a yellow badge, where the corrected count gives "Vencido" |
| BatchForm.AddBatchRow | script.js:239-275 | adding appends one blank row and keeps the existing rows |
| BatchForm.OpenBatch | script.js:233-236 | opening the batch form yields exactly one row, the blank row dated today |
| BatchForm.RemoveBatchRow | script.js:278-282 | a remove click deletes that row only while more than one row exists, so a non-empty form stays non-empty |
| BatchForm.BatchNeverEmpty | script.js:278-282 | no sequence of add, remove and edit actions empties a form that has a row |
| BatchForm.RowToDraft | script.js:390-399 | the entry built from a row passes the server's validation exactly when all six inputs hold truthy values, and then its client, date, product, commission, forecast and status are the row's six inputs in that order |
| BatchForm.SaveBatch | script.js:386-400 | one entry per row, in row order; the list passes validation exactly when every row is filled |
| BatchForm.SavedBatchOutcome | script.js:386-415 | a batch saved from the form is never refused as empty; with every row filled it adds one entry per row, in row order; the stored row i carries row i's six inputs; otherwise it is refused and nothing changes |
| BatchForm.BlankRowRefused | script.js:245-266 | a freshly opened form saved unchanged is refused, since its commission is empty |

## Findings

| source | as written | input that shows it | evidently intended | confidence | as-written member | corrected member |
|---|---|---|---|---|---|---|
| script.js:91 | `new Date(entry.date).getMonth() + 1` parses `YYYY-MM-DD` as UTC midnight but reads the month in local time | an entry dated 2024-03-01 in a browser at UTC-3 (the pt-BR locale the page targets), with month "3" selected: the entry is hidden from the table and from the total | the month written in the date | not executed; ECMAScript reads date-only ISO strings as UTC | Client.FirstOfMonthMisfiledWestOfUtc | Client.FilterByMonth |
| script.js:169-171 | `new Date(forecastDate)` is UTC midnight, while `today` is local midnight, and the difference is rounded up | a forecast of today in a browser at UTC+1: 1 day left and a yellow "1 dias" badge | 0 days left, shown as "Vencido" | not executed; ECMAScript reads date-only ISO strings as UTC | Client.DueTodayNotOverdueEastOfUtc | Client.CalculateDaysLeft |

The rest of the model uses the corrected members. `Client.MonthlyTotal` and the month-filter lemmas are stated over `Client.FilterByMonth`, and the days-left properties over `Client.CalculateDaysLeft`. The as-written members are kept beside them to show the discrepancy.

## Left out

- Express, CORS and JSON wiring, `app.listen`, and the logging are not modelled. So are the outer `try/catch` blocks that answer 500 "Erro interno do servidor". One example of what they catch: a `null` element in a batch array makes `entry.client` throw. Request bodies in the model are always records, so that path does not arise.
- The SQLite connection, `db.serialize` and the DDL are replaced by the row-sequence table. The NOT NULL constraints cannot fail after validation. Each callback-style call is a synchronous result.
- Concurrency is not modelled: requests are served one at a time.
- `Server.Env` stands in for the clock, `date('now')` and storage failures. Which storage errors occur is not modelled; `storageFails` only says whether the call fails.
- Commission is integer cents. `parseFloat`, `toFixed`, `formatCurrency` and REAL storage are floating point and are not modelled.
- Dates are day numbers, so a truthy date string that is not an ISO date is not modelled. Validation would accept it, and `strftime` would yield NULL for it.
- A path id is an integer. A non-numeric `:id` matches no row in SQLite and is not modelled. The PUT echo `{ id, ...entry }` carries the path id as the JSON string from `req.params`; the model echoes it as the integer.
- Server.Draft: a text field is a string and the commission a number, so other JSON types are not modelled. They change validation: a body with `"commission": "0"` (a string) is truthy, passes the checks at backend/server.js:53 and backend/server.js:80, and SQLite's REAL affinity stores it as 0. So ServerProperties.ZeroCommissionRejected covers only the number 0.
- `Server.Draft` carries only the six fields. The `{ id, ...entry }` echo also copies any extra body properties, and a body `id` property would override the echoed id. This is not modelled.
- Database.GetUpcomingNotifications: `daysLeft` is the `differenceInDays` value supplied by `Env.daysUntil`. The date-fns rounding internals are not modelled; only the classification is proved. The upper bound today + 30 assumes the server's time zone has no daylight-saving change in the next 15 days (as on a UTC host): `addDays(new Date(), 15)` works in local time, so near UTC midnight such a change can move the bound to today + 29 or today + 31.
- Client.LocalDayOfUtcMidnight and Client.CalculateDaysLeftAsWritten: the time zone is a fixed offset in milliseconds. Daylight-saving changes between two dates are not modelled.
- The order of rows with equal dates is left unspecified by SQL. The model sorts stably in table order, and no contract relies on it.
- SQLite's limit on bound parameters per statement could make a very large batch fail. That limit depends on the SQLite version and is not modelled.
- Page-level code is not modelled: DOM rendering, `fetch`, modals, confetti, `Math.random`, `setTimeout`, animations, `formatDate`, `showError`, notification message text, `init`, `fetchData`, `checkNotifications`, and the `editEntry`, `deleteEntry` and `saveEntry` wrappers around `fetch`. They are UI and I/O. The form-to-entry mapping of `saveEntry` mirrors the one modelled for `saveBatch`.

=== FILE: batch_form.dfy ===
/** The batch form of the page (script.js): rows of six inputs that the user
    adds, edits and removes, and saveBatch, which turns them into the body
    of POST /api/entries/batch. A row's inputs, in document order, are the
    client, date, product, commission, forecast and status; the record below
    names them in that order. */
module BatchForm {
  import opened Wrappers
  import opened Calendar
  import opened Database
  import opened Server

  /** The values of one row's inputs. An empty date input reads as "", and an
      empty or unparsable commission input parses to NaN, which
      JSON.stringify sends as null; both are `None` here. */
  datatype BatchRow = BatchRow(
    client: string,
    date: Option<Day>,
    product: string,
    commission: Option<int>,
    forecast: Option<Day>,
    status: string)

  /** A row as addBatchRow creates it: both dates set to today, the text and
      number inputs empty, the status select on its first option. */
  function BlankRow(today: Day): BatchRow
  {
    BatchRow("", Some(today), "", None, Some(today), Pending)
  }

  datatype Action = AddRow | RemoveRow(index: int) | EditRow(index: int, row: BatchRow)

  /** addBatchRow: appends a blank row. */
  function AddBatchRow(rows: seq<BatchRow>, today: Day): (r: seq<BatchRow>)
    ensures |r| == |rows| + 1 && r[..|rows|] == rows && r[|rows|] == BlankRow(today)
  {
    rows + [BlankRow(today)]
  }

  /** The remove button of row `index`: it removes the row only while more
      than one row is in the table. */
  function RemoveBatchRow(rows: seq<BatchRow>, index: int): (r: seq<BatchRow>)
    ensures |rows| > 1 && 0 <= index < |rows| ==> r == rows[..index] + rows[index + 1..]
    ensures !(|rows| > 1 && 0 <= index < |rows|) ==> r == rows
    ensures |rows| >= 1 ==> |r| >= 1
  {
    if |rows| > 1 && 0 <= index < |rows| then rows[..index] + rows[index + 1..] else rows
  }

  /** The user typing into the inputs of row `index`. */
  function EditBatchRow(rows: seq<BatchRow>, index: int, row: BatchRow): (r: seq<BatchRow>)
    ensures |r| == |rows|
  {
    if 0 <= index < |rows| then rows[index := row] else rows
  }

  function Apply(rows: seq<BatchRow>, today: Day, a: Action): seq<BatchRow>
  {
    match a
    case AddRow => AddBatchRow(rows, today)
    case RemoveRow(i) => RemoveBatchRow(rows, i)
    case EditRow(i, row) => EditBatchRow(rows, i, row)
  }

  function ApplyAll(rows: seq<BatchRow>, today: Day, actions: seq<Action>): seq<BatchRow>
    decreases |actions|
  {
    if |actions| == 0 then rows else ApplyAll(Apply(rows, today, actions[0]), today, actions[1..])
  }

  /** newBatch on the cleared table: one blank row. */
  function OpenBatch(today: Day): (rows: seq<BatchRow>)
    ensures rows == [BlankRow(today)]
  {
    AddBatchRow([], today)
  }

  /** Once a row exists, no sequence of clicks and edits empties the table. */
  lemma {:induction false} BatchNeverEmpty(rows: seq<BatchRow>, today: Day, actions: seq<Action>)
    requires |rows| >= 1
    ensures |ApplyAll(rows, today, actions)| >= 1
    decreases |actions|
  {
    if |actions| > 0 {
      BatchNeverEmpty(Apply(rows, today, actions[0]), today, actions[1..]);
    }
  }

  /** The row holds a value the server accepts in each of the six inputs. */
  predicate Filled(row: BatchRow)
  {
    && row.client != ""
    && row.date.Some?
    && row.product != ""
    && row.commission.Some? && row.commission.value != 0
    && row.forecast.Some?
    && row.status != ""
  }

  /** The entry object saveBatch builds from one row. */
  function RowToDraft(row: BatchRow): (d: Draft)
    ensures Complete(d) <==> Filled(row)
    ensures Filled(row) ==>
      ToEntry(d) == Entry(row.client, row.date.value, row.product, row.commission.value, row.forecast.value, row.status)
  {
    Draft(Some(row.client), row.date, Some(row.product), row.commission, row.forecast, Some(row.status))
  }

  /** saveBatch: one entry per row, in row order. */
  function SaveBatch(rows: seq<BatchRow>): (ds: seq<Draft>)
    ensures |ds| == |rows|
    ensures forall i :: 0 <= i < |rows| ==> ds[i] == RowToDraft(rows[i])
    ensures AllComplete(ds) <==> forall i :: 0 <= i < |rows| ==> Filled(rows[i])
  {
    seq(|rows|, i requires 0 <= i < |rows| => RowToDraft(rows[i]))
  }

  /** What the server makes of a batch saved from the form: it is never
      refused as empty; with every row filled it adds one entry per row, in
      row order; otherwise it is refused and nothing is added. */
  lemma SavedBatchOutcome(s: Store, env: Env, today: Day, actions: seq<Action>)
    requires !env.storageFails
    ensures var rows := ApplyAll(OpenBatch(today), today, actions);
      var o := Handle(s, env, CreateBatch(Items(SaveBatch(rows))));
      && o.response.body != Error(NoEntries)
      && ((forall i :: 0 <= i < |rows| ==> Filled(rows[i])) ==>
            && o.response == Response(CreatedStatus, Count(|rows|))
            && forall i :: 0 <= i < |rows| ==>
                 o.store.rows[|s.rows| + i] == Row(s.nextId + i,
                   Entry(rows[i].client, rows[i].date.value, rows[i].product,
                         rows[i].commission.value, rows[i].forecast.value, rows[i].status),
                   env.now))
      && (!(forall i :: 0 <= i < |rows| ==> Filled(rows[i])) ==>
            o == Outcome(s, Response(BadRequest, Error(MissingFieldsInBatch))))
  {
    BatchNeverEmpty(OpenBatch(today), today, actions);
    SavedRowsOutcome(s, env, ApplyAll(OpenBatch(today), today, actions));
  }

  /** The same outcome for any non-empty list of rows. */
  lemma SavedRowsOutcome(s: Store, env: Env, rows: seq<BatchRow>)
    requires !env.storageFails
    requires |rows| >= 1
    ensures var o := Handle(s, env, CreateBatch(Items(SaveBatch(rows))));
      && o.response.body != Error(NoEntries)
      && ((forall i :: 0 <= i < |rows| ==> Filled(rows[i])) ==>
            && o.response == Response(CreatedStatus, Count(|rows|))
            && forall i :: 0 <= i < |rows| ==>
                 o.store.rows[|s.rows| + i] == Row(s.nextId + i,
                   Entry(rows[i].client, rows[i].date.value, rows[i].product,
                         rows[i].commission.value, rows[i].forecast.value, rows[i].status),
                   env.now))
      && (!(forall i :: 0 <= i < |rows| ==> Filled(rows[i])) ==>
            o == Outcome(s, Response(BadRequest, Error(MissingFieldsInBatch))))
  {
    var ds := SaveBatch(rows);
    var o := BatchRoute(s, env, Items(ds));
    assert Handle(s, env, CreateBatch(Items(ds))) == o;
    if forall i :: 0 <= i < |rows| ==> Filled(rows[i]) {
      forall i | 0 <= i < |rows|
        ensures o.store.rows[|s.rows| + i] == Row(s.nextId + i,
                   Entry(rows[i].client, rows[i].date.value, rows[i].product,
                         rows[i].commission.value, rows[i].forecast.value, rows[i].status),
                   env.now)
      {
        assert ds[i] == RowToDraft(rows[i]);
        assert Filled(rows[i]);
      }
    }
  }

  /** A freshly opened form cannot be saved as it is: its commission is empty. */
  lemma BlankRowRefused(s: Store, env: Env, today: Day)
    ensures Handle(s, env, CreateBatch(Items(SaveBatch(OpenBatch(today))))).response.status == BadRequest
  {
    assert !Filled(OpenBatch(today)[0]);
  }
}

=== FILE: calendar.dfy ===
/** Calendar dates as day numbers. A date `YYYY-MM-DD` is the number of days
    since 1970-01-01 in the proleptic Gregorian calendar, the calendar both
    SQLite's date functions and ECMAScript's Date use. Because ISO dates are
    zero-padded, comparing two of them as strings orders them exactly as
    their day numbers. */
module Calendar {

  type Day = int

  datatype Civil = Civil(year: int, month: int, day: int)

  const DaysPer400Years := 146097
  const DaysPer100Years := 36524
  const DaysPer4Years := 1461
  const DaysPerYear := 365
  /** Days from 0000-03-01 to 1970-01-01. */
  const EpochFromMarchZero := 719468

  /** The calendar date of day number `d`. Years are counted from March, so
      that the leap day is the last day of a year: a 400-year era has three
      centuries of 36524 days and one of 36525, a century has four-year
      blocks of 1461 days (the last one of the first three centuries has
      1460), and a March-based year starts with months of 31, 30, 31, 30, 31
      days in a 153-day rhythm. */
  function CivilFromDays(d: Day): (c: Civil)
    ensures 1 <= c.month <= 12
    ensures 1 <= c.day <= 31
  {
    var z := d + EpochFromMarchZero;
    var era := z / DaysPer400Years;
    var dayOfEra := z % DaysPer400Years;
    var century := if dayOfEra / DaysPer100Years < 3 then dayOfEra / DaysPer100Years else 3;
    var dayOfCentury := dayOfEra - DaysPer100Years * century;
    var quad := dayOfCentury / DaysPer4Years;
    var dayOfQuad := dayOfCentury % DaysPer4Years;
    var yearOfQuad := if dayOfQuad / DaysPerYear < 3 then dayOfQuad / DaysPerYear else 3;
    var dayOfYear := dayOfQuad - DaysPerYear * yearOfQuad;
    assert 0 <= dayOfYear <= 365;
    var marchMonth := (5 * dayOfYear + 2) / 153;
    var dayOfMonth := dayOfYear - (153 * marchMonth + 2) / 5 + 1;
    var month := if marchMonth < 10 then marchMonth + 3 else marchMonth - 9;
    var year := 400 * era + 100 * century + 4 * quad + yearOfQuad + (if month <= 2 then 1 else 0);
    Civil(year, month, dayOfMonth)
  }

  /** The month (1..12) written in a date, what SQLite's strftime('%m', …)
      prints (and what Date.prototype.getMonth() + 1 returns for the date's
      UTC midnight at UTC and east of it). */
  function MonthOf(d: Day): (m: int)
    ensures 1 <= m <= 12
  {
    CivilFromDays(d).month
  }

  /** 1970-01-01 is day 0. */
  lemma Epoch()
    ensures CivilFromDays(0) == Civil(1970, 1, 1)
  {
  }

}

=== FILE: client.dfy ===
/** The pure helpers of the browser page (script.js): the month filter that
    the table and the monthly total share, the days-left badge, and the
    status class and label. Dates are read as the calendar day they name. */
module Client {
  import opened Seqs
  import opened Sorting
  import opened Calendar
  import opened Database
  import JsText

  // ---------------------------------------------------------------------
  // Month filter (renderSpreadsheet and calculateMonthlyTotal)

  /** The option value of the month selector that means "every month". */
  const AllMonths := "0"

  /** `currentMonth === '0'`, or the entry's month printed as a number
      equals the selected option value. */
  predicate Shown(row: Row, selection: string)
  {
    selection == AllMonths || JsText.IntToString(MonthOf(row.entry.date)) == selection
  }

  predicate MonthPrintsAs(row: Row, selection: string)
  {
    JsText.IntToString(MonthOf(row.entry.date)) == selection
  }

  /** The entries the table shows for the selected month, in the order received. */
  function FilterByMonth(rows: seq<Row>, selection: string): (r: seq<Row>)
    ensures selection == AllMonths ==> r == rows
    ensures IsSubseq(r, rows)
    ensures forall x :: multiset(r)[x] == if Shown(x, selection) then multiset(rows)[x] else 0
  {
    if selection == AllMonths then
      assert IsSubseq(rows, rows) by { SubseqReflexive(rows); }
      rows
    else
      Filter(rows, (row: Row) => MonthPrintsAs(row, selection))
  }

  /** Selecting month k (1..12) shows exactly the entries dated in month k. */
  lemma SelectedMonthShowsThatMonth(rows: seq<Row>, k: int, x: Row)
    requires 1 <= k <= 12
    ensures x in FilterByMonth(rows, JsText.IntToString(k)) <==> x in rows && MonthOf(x.entry.date) == k
  {
    var sel := JsText.IntToString(k);
    assert sel != AllMonths by {
      if sel == AllMonths {
        JsText.IntToStringInjective(k, 0);
      }
    }
    var r := FilterByMonth(rows, sel);
    assert x in r <==> multiset(r)[x] > 0;
    if MonthPrintsAs(x, sel) {
      JsText.IntToStringInjective(MonthOf(x.entry.date), k);
    }
  }

  /** An option value that is neither '0' nor the printed form of a month
      (such as '03' or '13') shows nothing. */
  lemma UnknownSelectionShowsNothing(rows: seq<Row>, selection: string)
    requires selection != AllMonths
    requires forall k :: 1 <= k <= 12 ==> JsText.IntToString(k) != selection
    ensures FilterByMonth(rows, selection) == []
  {
    var r := FilterByMonth(rows, selection);
    forall x ensures multiset(r)[x] == 0 {
      assert !MonthPrintsAs(x, selection);
    }
    assert multiset(r) == multiset{};
  }

  /** Filtering keeps the newest-first order the server sends. */
  lemma FilterKeepsDateOrder(rows: seq<Row>, selection: string)
    requires SortedBy(rows, DateKey, Descending)
    ensures SortedBy(FilterByMonth(rows, selection), DateKey, Descending)
  {
    SubseqOfSorted(FilterByMonth(rows, selection), rows, DateKey, Descending);
  }

  // ---------------------------------------------------------------------
  // Monthly total

  /** `reduce((sum, entry) => sum + entry.commission, 0)` */
  function SumCommissions(rows: seq<Row>): int
  {
    if |rows| == 0 then 0 else rows[0].entry.commission + SumCommissions(rows[1..])
  }

  /** calculateMonthlyTotal: the commissions of the entries the table shows. */
  function MonthlyTotal(rows: seq<Row>, selection: string): (total: int)
    ensures FilterByMonth(rows, selection) == [] ==> total == 0
  {
    SumCommissions(FilterByMonth(rows, selection))
  }

  /** Reference definition: each entry contributes its commission when the
      month selection shows it, and nothing otherwise. */
  function ShownCommissions(rows: seq<Row>, selection: string): int
  {
    if |rows| == 0 then 0
    else (if Shown(rows[0], selection) then rows[0].entry.commission else 0) + ShownCommissions(rows[1..], selection)
  }

  /** The total sums exactly the entries the table shows. */
  lemma {:induction false} TotalMatchesTable(rows: seq<Row>, selection: string)
    ensures MonthlyTotal(rows, selection) == ShownCommissions(rows, selection)
    decreases |rows|
  {
    if selection == AllMonths {
      AllShownSumsAll(rows);
    } else if |rows| > 0 {
      TotalMatchesTable(rows[1..], selection);
      FilterByMonthCons(rows, selection);
      var rest := FilterByMonth(rows[1..], selection);
      if MonthPrintsAs(rows[0], selection) {
        assert ([rows[0]] + rest)[1..] == rest;
        assert SumCommissions([rows[0]] + rest) == rows[0].entry.commission + SumCommissions(rest);
      }
    }
  }

  /** Filtering by a month looks at the first entry and filters the rest. */
  lemma FilterByMonthCons(rows: seq<Row>, selection: string)
    requires selection != AllMonths && |rows| > 0
    ensures FilterByMonth(rows, selection) ==
      if MonthPrintsAs(rows[0], selection) then [rows[0]] + FilterByMonth(rows[1..], selection)
      else FilterByMonth(rows[1..], selection)
  {
  }

  lemma {:induction false} AllShownSumsAll(rows: seq<Row>)
    ensures ShownCommissions(rows, AllMonths) == SumCommissions(rows)
    decreases |rows|
  {
    if |rows| > 0 {
      AllShownSumsAll(rows[1..]);
    }
  }

  /** The commissions of one entry, counted once for each month 1..k whose
      printed number matches its month. */
  function EntryInMonths(x: Row, k: int): int
    decreases k
  {
    if k <= 0 then 0
    else EntryInMonths(x, k - 1) + (if Shown(x, JsText.IntToString(k)) then x.entry.commission else 0)
  }

  lemma {:induction false} EntryInMonthsOnce(x: Row, k: int)
    requires 0 <= k <= 12
    ensures EntryInMonths(x, k) == if MonthOf(x.entry.date) <= k then x.entry.commission else 0
    decreases k
  {
    if k > 0 {
      EntryInMonthsOnce(x, k - 1);
      var sel := JsText.IntToString(k);
      if sel == AllMonths {
        JsText.IntToStringInjective(k, 0);
      }
      if MonthPrintsAs(x, sel) {
        JsText.IntToStringInjective(MonthOf(x.entry.date), k);
      }
    }
  }

  /** The totals of months 1..k added up. */
  function MonthsTotal(rows: seq<Row>, k: int): int
    decreases k
  {
    if k <= 0 then 0 else MonthsTotal(rows, k - 1) + ShownCommissions(rows, JsText.IntToString(k))
  }

  lemma {:induction false} MonthsTotalSplit(rows: seq<Row>, k: int)
    requires |rows| > 0
    ensures MonthsTotal(rows, k) == EntryInMonths(rows[0], k) + MonthsTotal(rows[1..], k)
    decreases k
  {
    if k > 0 {
      MonthsTotalSplit(rows, k - 1);
    }
  }

  lemma {:induction false} MonthsTotalOfAll(rows: seq<Row>)
    ensures MonthsTotal(rows, 12) == ShownCommissions(rows, AllMonths)
    decreases |rows|
  {
    if |rows| == 0 {
      assert forall k :: 0 <= k <= 12 ==> MonthsTotal(rows, k) == 0 by {
        forall k | 0 <= k <= 12 ensures MonthsTotal(rows, k) == 0 {
          ZeroMonthsTotal(rows, k);
        }
      }
    } else {
      MonthsTotalSplit(rows, 12);
      EntryInMonthsOnce(rows[0], 12);
      MonthsTotalOfAll(rows[1..]);
    }
  }

  lemma {:induction false} ZeroMonthsTotal(rows: seq<Row>, k: int)
    requires |rows| == 0
    ensures MonthsTotal(rows, k) == 0
    decreases k
  {
    if k > 0 {
      ZeroMonthsTotal(rows, k - 1);
    }
  }

  /** The total for "every month" is the sum of the twelve monthly totals. */
  lemma AllMonthsTotalIsSumOfMonths(rows: seq<Row>)
    ensures MonthlyTotal(rows, AllMonths) == MonthsTotal(rows, 12)
  {
    TotalMatchesTable(rows, AllMonths);
    MonthsTotalOfAll(rows);
  }

  // ---------------------------------------------------------------------
  // Days left (calculateDaysLeft) and the days-left badge

  const MsPerDay := 1000 * 60 * 60 * 24

  /** Math.ceil(ms / (1000 * 60 * 60 * 24)) for a whole number of milliseconds. */
  function CeilDays(ms: int): (n: int)
    ensures MsPerDay * (n - 1) < ms <= MsPerDay * n
  {
    -((-ms) / MsPerDay)
  }

  /** Whole days from local midnight of `today` to the forecast, with the
      forecast read as local midnight of the day it names. `utcOffsetMs` is
      the local time minus UTC; both instants are in UTC milliseconds. */
  function CalculateDaysLeft(forecast: Day, today: Day, utcOffsetMs: int): (n: int)
    ensures n == forecast - today
  {
    var todayMidnight := today * MsPerDay - utcOffsetMs;
    var forecastMidnight := forecast * MsPerDay - utcOffsetMs;
    CeilDays(forecastMidnight - todayMidnight)
  }

  /** calculateDaysLeft as written: `new Date('YYYY-MM-DD')` is UTC midnight of
      the forecast, while `today.setHours(0, 0, 0, 0)` is local midnight. In
      time zones east of UTC the forecast lies a few hours after local
      midnight and the ceiling adds a day. */
  function CalculateDaysLeftAsWritten(forecast: Day, today: Day, utcOffsetMs: int): (n: int)
    ensures -MsPerDay < utcOffsetMs <= 0 ==> n == forecast - today
    ensures 0 < utcOffsetMs < MsPerDay ==> n == forecast - today + 1
  {
    var todayMidnight := today * MsPerDay - utcOffsetMs;
    var forecastUtcMidnight := forecast * MsPerDay;
    CeilDays(forecastUtcMidnight - todayMidnight)
  }

  const OverdueClass := "text-red-500 font-bold"
  const SoonClass := "text-yellow-600"
  const LaterClass := "text-green-600"
  const OverdueLabel := "Vencido"
  /** Days ahead up to which the badge is yellow. */
  const SoonDays := 15

  datatype Badge = Badge(cssClass: string, text: string)

  /** The days-left cell of a table row: its colour class and its text. */
  function DaysLeftBadge(daysLeft: int): (b: Badge)
    ensures b.cssClass == OverdueClass <==> daysLeft <= 0
    ensures b.cssClass == SoonClass <==> 0 < daysLeft <= SoonDays
    ensures b.cssClass == LaterClass <==> SoonDays < daysLeft
    ensures b.text == OverdueLabel <==> daysLeft <= 0
    ensures daysLeft > 0 ==> b.text == JsText.IntToString(daysLeft) + " dias"
  {
    var cssClass := if daysLeft <= 0 then OverdueClass else if daysLeft <= SoonDays then SoonClass else LaterClass;
    var text := if daysLeft <= 0 then OverdueLabel else JsText.IntToString(daysLeft) + " dias";
    assert daysLeft > 0 ==> text[|text| - 1] == 's';
    Badge(cssClass, text)
  }

  // ---------------------------------------------------------------------
  // Status class and label

  const Completed := "concluido"
  const Cancelled := "cancelado"

  predicate IsKnownStatus(status: string)
  {
    status == Pending || status == Completed || status == Cancelled
  }

  /** getStatusClass */
  function StatusClass(status: string): (c: string)
    ensures IsKnownStatus(status) ==> c == "status-" + status
    ensures !IsKnownStatus(status) ==> c == ""
  {
    if status == Pending then "status-pendente"
    else if status == Completed then "status-concluido"
    else if status == Cancelled then "status-cancelado"
    else ""
  }

  const PendingLabel := "Pendente"
  const CompletedLabel := "Conclu\U{ED}do"
  const CancelledLabel := "Cancelado"

  /** getStatusText */
  function StatusText(status: string): (t: string)
    ensures status == Pending ==> t == PendingLabel
    ensures status == Completed ==> t == CompletedLabel
    ensures status == Cancelled ==> t == CancelledLabel
    ensures !IsKnownStatus(status) ==> t == status
    ensures IsKnownStatus(status) ==> t != status && |t| == |status| && !IsKnownStatus(t)
  {
    if status == Pending then PendingLabel
    else if status == Completed then CompletedLabel
    else if status == Cancelled then CancelledLabel
    else status
  }

  /** The class and the label together tell every status apart. */
  lemma StatusCellIdentifiesStatus(a: string, b: string)
    ensures StatusClass(a) == StatusClass(b) && StatusText(a) == StatusText(b) ==> a == b
  {
    if IsKnownStatus(a) && IsKnownStatus(b) {
      assert ("status-" + a)[7..] == a;
      assert ("status-" + b)[7..] == b;
    }
  }

  /** The label alone does not: an unknown status 'Pendente' reads like
      'pendente' and only its class tells them apart. */
  lemma StatusLabelAmbiguous()
    ensures StatusText("Pendente") == StatusText(Pending)
    ensures StatusClass("Pendente") != StatusClass(Pending)
  {
  }

  // ---------------------------------------------------------------------
  // The month filter as written

  /** The local calendar day on which UTC midnight of day `d` falls, what
      `new Date('YYYY-MM-DD')` followed by getMonth() reads in a time zone
      `utcOffsetMs` milliseconds ahead of UTC. */
  function LocalDayOfUtcMidnight(d: Day, utcOffsetMs: int): (local: Day)
    ensures 0 <= utcOffsetMs < MsPerDay ==> local == d
    ensures -MsPerDay <= utcOffsetMs < 0 ==> local == d - 1
  {
    (d * MsPerDay + utcOffsetMs) / MsPerDay
  }

  predicate ShownAsWritten(row: Row, selection: string, utcOffsetMs: int)
  {
    selection == AllMonths
    || JsText.IntToString(MonthOf(LocalDayOfUtcMidnight(row.entry.date, utcOffsetMs))) == selection
  }

  /** The filter of renderSpreadsheet and calculateMonthlyTotal as written. */
  function FilterByMonthAsWritten(rows: seq<Row>, selection: string, utcOffsetMs: int): (r: seq<Row>)
    ensures selection == AllMonths ==> r == rows
    ensures IsSubseq(r, rows)
    ensures forall x :: multiset(r)[x] == if ShownAsWritten(x, selection, utcOffsetMs) then multiset(rows)[x] else 0
  {
    if selection == AllMonths then
      assert IsSubseq(rows, rows) by { SubseqReflexive(rows); }
      rows
    else Filter(rows, (row: Row) => ShownAsWritten(row, selection, utcOffsetMs))
  }

  /** At UTC and east of it, the written filter agrees with the intended one. */
  lemma AsWrittenAgreesEastOfUtc(rows: seq<Row>, selection: string, utcOffsetMs: int)
    requires 0 <= utcOffsetMs < MsPerDay
    ensures FilterByMonthAsWritten(rows, selection, utcOffsetMs) == FilterByMonth(rows, selection)
  {
    if selection != AllMonths {
      FilterCongruent(rows, (row: Row) => ShownAsWritten(row, selection, utcOffsetMs),
                            (row: Row) => MonthPrintsAs(row, selection));
    }
  }

  /** West of UTC (Brazil is UTC-3) an entry dated 2024-03-01 is filed under
      February: selecting March hides it from the table and the total. */
  /** Day 19783 is 2024-03-01. */
  lemma MarchFirst2024()
    ensures CivilFromDays(19783) == Civil(2024, 3, 1)
    ensures MonthOf(19783) == 3
  {
  }

  /** Day 19782, the day before, is 2024-02-29. */
  lemma LeapDay2024()
    ensures CivilFromDays(19782) == Civil(2024, 2, 29)
    ensures MonthOf(19782) == 2
  {
  }

  lemma FirstOfMonthMisfiledWestOfUtc(row: Row)
    requires row.entry.date == 19783
    ensures CivilFromDays(19783) == Civil(2024, 3, 1)
    ensures FilterByMonth([row], "3") == [row]
    ensures FilterByMonthAsWritten([row], "3", -3 * 60 * 60 * 1000) == []
  {
    var westOffset := -3 * 60 * 60 * 1000;
    MarchFirst2024();
    LeapDay2024();
    assert JsText.IntToString(3) == "3";
    assert JsText.IntToString(2) == "2";
    assert LocalDayOfUtcMidnight(19783, westOffset) == 19782;
    var r := FilterByMonthAsWritten([row], "3", westOffset);
    assert multiset(r)[row] == 0;
    assert multiset(r) == multiset{};
  }

  /** East of UTC a forecast of today reads as one day left: the badge shows
      "1 dias" in yellow instead of "Vencido" in red. */
  lemma DueTodayNotOverdueEastOfUtc(today: Day)
    ensures CalculateDaysLeftAsWritten(today, today, 60 * 60 * 1000) == 1
    ensures DaysLeftBadge(CalculateDaysLeftAsWritten(today, today, 60 * 60 * 1000)).cssClass == SoonClass
    ensures DaysLeftBadge(CalculateDaysLeft(today, today, 60 * 60 * 1000)).text == OverdueLabel
  {
  }
}

=== FILE: database.dfy ===
/** The entries table and the statements the data-access layer runs on it
    (backend/database.js). The table is a sequence of rows in insertion
    order plus the AUTOINCREMENT counter; every statement is a pure function
    from the table to its result. */
module Database {
  import opened Wrappers
  import opened Seqs
  import opened Sorting
  import opened Calendar
  import JsText

  /** The value CURRENT_TIMESTAMP has when a row is inserted. */
  type Timestamp = int

  /** The six business fields of a commission entry; the commission is in
      cents, the two dates are day numbers. */
  datatype Entry = Entry(
    client: string,
    date: Day,
    product: string,
    commission: int,
    forecast: Day,
    status: string)

  /** A stored row: the id and created_at columns are assigned by the store. */
  datatype Row = Row(id: int, entry: Entry, createdAt: Timestamp)

  /** The table, plus the next id AUTOINCREMENT hands out (sqlite_sequence + 1). */
  datatype Store = Store(rows: seq<Row>, nextId: int)

  const Pending := "pendente"

  predicate DistinctIds(rows: seq<Row>)
  {
    forall i, j :: 0 <= i < j < |rows| ==> rows[i].id != rows[j].id
  }

  predicate HasId(s: Store, id: int)
  {
    exists i :: 0 <= i < |s.rows| && s.rows[i].id == id
  }

  /** What PRIMARY KEY AUTOINCREMENT guarantees: ids are unique, positive and
      below the next id to be handed out. */
  predicate Valid(s: Store)
  {
    && 0 < s.nextId
    && DistinctIds(s.rows)
    && forall i :: 0 <= i < |s.rows| ==> 0 < s.rows[i].id < s.nextId
  }

  /** The freshly created table. */
  function EmptyStore(): (s: Store)
    ensures Valid(s) && |s.rows| == 0
  {
    Store([], 1)
  }

  // ---------------------------------------------------------------------
  // SELECT * FROM entries WHERE id = ?

  function FindRow(rows: seq<Row>, id: int): (r: Option<Row>)
    ensures r.Some? ==> r.value in rows && r.value.id == id
    ensures r.None? <==> forall i :: 0 <= i < |rows| ==> rows[i].id != id
  {
    if |rows| == 0 then None
    else if rows[0].id == id then Some(rows[0])
    else
      assert forall i :: 0 < i < |rows| ==> rows[i] == rows[1..][i - 1];
      FindRow(rows[1..], id)
  }

  /** getEntryById: the row with that id, or nothing. */
  function GetEntryById(s: Store, id: int): (r: Option<Row>)
    ensures r.None? <==> !HasId(s, id)
    ensures r.Some? ==> r.value in s.rows && r.value.id == id
    ensures Valid(s) && r.Some? ==>
      forall i :: 0 <= i < |s.rows| && s.rows[i].id == id ==> s.rows[i] == r.value
  {
    FindRow(s.rows, id)
  }

  // ---------------------------------------------------------------------
  // INSERT

  /** The store after an insert, and the id the insert was given (this.lastID). */
  datatype Inserted = Inserted(store: Store, lastId: int)

  /** createEntry: one INSERT of the six fields; id and created_at come from
      the store. */
  function CreateEntry(s: Store, e: Entry, now: Timestamp): (r: Inserted)
    ensures r.lastId == s.nextId < r.store.nextId
    ensures r.store.rows == s.rows + [Row(r.lastId, e, now)]
    ensures Valid(s) ==> Valid(r.store)
    ensures Valid(s) ==> forall i :: 0 <= i < |s.rows| ==> s.rows[i].id < r.lastId
  {
    Inserted(Store(s.rows + [Row(s.nextId, e, now)], s.nextId + 1), s.nextId)
  }

  /** The rows a multi-row INSERT adds: consecutive ids from `firstId`. */
  function NewRows(es: seq<Entry>, firstId: int, now: Timestamp): (rows: seq<Row>)
    ensures |rows| == |es|
    ensures forall i :: 0 <= i < |es| ==> rows[i] == Row(firstId + i, es[i], now)
  {
    seq(|es|, i requires 0 <= i < |es| => Row(firstId + i, es[i], now))
  }

  /** `INSERT … VALUES ` with no value tuple does not parse. */
  datatype SqlError = SyntaxError

  /** The store after a statement, and how many rows it changed (this.changes). */
  datatype Changed = Changed(store: Store, changes: nat)

  /** createBatchEntries: a single multi-row INSERT, so it adds every entry or,
      when it fails, none. */
  function CreateBatchEntries(s: Store, es: seq<Entry>, now: Timestamp): (r: Result<Changed, SqlError>)
    ensures r.Failure? <==> |es| == 0
    ensures r.Success? ==> r.value.changes == |es|
    ensures r.Success? ==> r.value.store.rows == s.rows + NewRows(es, s.nextId, now)
    ensures r.Success? ==> r.value.store.nextId == s.nextId + |es|
    ensures r.Success? && Valid(s) ==> Valid(r.value.store)
  {
    if |es| == 0 then Failure(SyntaxError)
    else
      var added := NewRows(es, s.nextId, now);
      Success(Changed(Store(s.rows + added, s.nextId + |es|), |es|))
  }

  // ---------------------------------------------------------------------
  // UPDATE and DELETE

  /** updateEntry: UPDATE … SET <six fields> WHERE id = ?. */
  function UpdateEntry(s: Store, id: int, e: Entry): (r: Store)
    ensures r.nextId == s.nextId && |r.rows| == |s.rows|
    ensures forall i :: 0 <= i < |s.rows| ==>
      r.rows[i].id == s.rows[i].id && r.rows[i].createdAt == s.rows[i].createdAt
    ensures forall i :: 0 <= i < |s.rows| && s.rows[i].id == id ==> r.rows[i].entry == e
    ensures forall i :: 0 <= i < |s.rows| && s.rows[i].id != id ==> r.rows[i] == s.rows[i]
    ensures !HasId(s, id) ==> r == s
    ensures Valid(s) ==> Valid(r)
  {
    var rows := seq(|s.rows|, i requires 0 <= i < |s.rows| =>
      if s.rows[i].id == id then s.rows[i].(entry := e) else s.rows[i]);
    assert !HasId(s, id) ==> rows == s.rows;
    Store(rows, s.nextId)
  }

  /** deleteEntry: DELETE FROM entries WHERE id = ?. */
  function DeleteEntry(s: Store, id: int): (r: Store)
    ensures r.nextId == s.nextId
    ensures forall x :: multiset(r.rows)[x] == if x.id != id then multiset(s.rows)[x] else 0
    ensures IsSubseq(r.rows, s.rows)
    ensures !HasId(r, id)
    ensures !HasId(s, id) ==> r == s
    ensures Valid(s) ==> Valid(r)
  {
    var rows := Filter(s.rows, (row: Row) => row.id != id);
    assert !HasId(Store(rows, s.nextId), id) by {
      forall i | 0 <= i < |rows| ensures rows[i].id != id { }
    }
    assert multiset(rows) <= multiset(s.rows);
    assert Valid(s) ==> Valid(Store(rows, s.nextId)) by {
      if Valid(s) {
        SubMultisetValid(s, rows);
      }
    }
    Store(rows, s.nextId)
  }

  /** Keeping some of the rows of a valid table keeps it valid. */
  lemma SubMultisetValid(s: Store, rows: seq<Row>)
    requires Valid(s)
    requires multiset(rows) <= multiset(s.rows)
    ensures Valid(Store(rows, s.nextId))
  {
    DistinctIdsOfSubMultiset(rows, s.rows);
    forall i | 0 <= i < |rows| ensures 0 < rows[i].id < s.nextId {
      assert rows[i] in multiset(rows);
      assert rows[i] in s.rows;
    }
  }

  // ---------------------------------------------------------------------
  // Queries ordered by date

  function DateKey(row: Row): int
  {
    row.entry.date
  }

  /** getAllEntries: SELECT * … ORDER BY date DESC. */
  function GetAllEntries(s: Store): (r: seq<Row>)
    ensures multiset(r) == multiset(s.rows)
    ensures SortedBy(r, DateKey, Descending)
  {
    SortBy(s.rows, DateKey, Descending)
  }

  /** What strftime('%m', date) yields. */
  function MonthText(d: Day): (t: string)
    ensures |t| == 2
  {
    JsText.TwoDigits(MonthOf(d))
  }

  /** What month.toString().padStart(2, '0') yields. */
  function MonthParameter(month: int): string
  {
    JsText.PadStart(JsText.IntToString(month), 2, '0')
  }

  /** The rows a month query is meant to select. */
  predicate InMonth(row: Row, month: int)
  {
    1 <= month <= 12 && MonthOf(row.entry.date) == month
  }

  /** The text comparison of the query selects exactly the rows of that month. */
  lemma MonthTextMatches(month: int, x: Row)
    ensures MonthText(x.entry.date) == MonthParameter(month) <==> InMonth(x, month)
  {
    JsText.PaddedMatchesTwoDigits(month, MonthOf(x.entry.date));
  }

  predicate HasMonthText(row: Row, key: string)
  {
    MonthText(row.entry.date) == key
  }

  /** WHERE strftime('%m', date) = <padded month>, in table order. */
  function RowsOfMonth(s: Store, month: int): (r: seq<Row>)
    ensures forall x :: multiset(r)[x] == if InMonth(x, month) then multiset(s.rows)[x] else 0
  {
    var key := MonthParameter(month);
    var r := Filter(s.rows, (row: Row) => HasMonthText(row, key));
    assert forall x :: multiset(r)[x] == if InMonth(x, month) then multiset(s.rows)[x] else 0 by {
      forall x ensures multiset(r)[x] == if InMonth(x, month) then multiset(s.rows)[x] else 0 {
        MonthTextMatches(month, x);
      }
    }
    r
  }

  /** getEntriesByMonth: the rows whose date's two-digit month text equals the
      padded parameter, newest first. Only months 1..12 match anything. */
  function GetEntriesByMonth(s: Store, month: int): (r: seq<Row>)
    ensures forall x :: multiset(r)[x] == if InMonth(x, month) then multiset(s.rows)[x] else 0
    ensures SortedBy(r, DateKey, Descending)
    ensures !(1 <= month <= 12) ==> r == []
  {
    var r := SortBy(RowsOfMonth(s, month), DateKey, Descending);
    assert !(1 <= month <= 12) ==> r == [] by {
      if !(1 <= month <= 12) {
        assert multiset(r) == multiset{};
      }
    }
    r
  }

  /** The month queries for months 1..k, taken together. */
  ghost function MonthsUnion(s: Store, k: int): multiset<Row>
    decreases k
  {
    if k <= 0 then multiset{} else MonthsUnion(s, k - 1) + multiset(GetEntriesByMonth(s, k))
  }

  lemma {:induction false} MonthsUnionCount(s: Store, k: int, x: Row)
    requires 0 <= k <= 12
    ensures MonthsUnion(s, k)[x] == if MonthOf(x.entry.date) <= k then multiset(s.rows)[x] else 0
    decreases k
  {
    var month := MonthOf(x.entry.date);
    if k > 0 {
      MonthsUnionCount(s, k - 1, x);
      var ofK := GetEntriesByMonth(s, k);
      assert multiset(ofK)[x] == if month == k then multiset(s.rows)[x] else 0;
      assert MonthsUnion(s, k)[x] == MonthsUnion(s, k - 1)[x] + multiset(ofK)[x];
    } else {
      assert 1 <= month;
    }
  }

  /** Every row falls in exactly one month: the twelve month queries together
      return each row of the table as often as the full listing does. */
  lemma MonthsReconstructAll(s: Store)
    ensures MonthsUnion(s, 12) == multiset(GetAllEntries(s))
  {
    forall x: Row ensures MonthsUnion(s, 12)[x] == multiset(GetAllEntries(s))[x] {
      MonthsUnionCount(s, 12, x);
    }
  }

  // ---------------------------------------------------------------------
  // Distinct ids survive taking rows out or reordering them

  lemma {:induction false} DistinctIdsAtMostOnce(xs: seq<Row>, x: Row)
    requires DistinctIds(xs)
    ensures multiset(xs)[x] <= 1
    decreases |xs|
  {
    if |xs| > 0 {
      assert xs == [xs[0]] + xs[1..];
      assert DistinctIds(xs[1..]) by {
        forall i, j | 0 <= i < j < |xs[1..]| ensures xs[1..][i].id != xs[1..][j].id {
          assert xs[1..][i] == xs[i + 1] && xs[1..][j] == xs[j + 1];
        }
      }
      DistinctIdsAtMostOnce(xs[1..], x);
      if x == xs[0] {
        assert x !in xs[1..];
      }
    }
  }

  lemma DistinctIdsOfSubMultiset(ys: seq<Row>, xs: seq<Row>)
    requires multiset(ys) <= multiset(xs)
    requires DistinctIds(xs)
    ensures DistinctIds(ys)
  {
    forall i, j | 0 <= i < j < |ys| ensures ys[i].id != ys[j].id {
      assert ys[i] in multiset(xs) && ys[j] in multiset(xs);
      if ys[i].id == ys[j].id {
        if ys[i] == ys[j] {
          assert ys == ys[..j] + ys[j..];
          assert ys[i] in ys[..j] && ys[j] in ys[j..];
          assert multiset(ys)[ys[i]] >= 2;
          DistinctIdsAtMostOnce(xs, ys[i]);
        }
      }
    }
  }

  // ---------------------------------------------------------------------
  // SELECT id, client, forecast FROM entries WHERE status = 'pendente'
  //   AND forecast BETWEEN date('now') AND date(<today + 15 days>, '+15 days')
  //   ORDER BY forecast ASC

  datatype Kind = Danger | Warning

  datatype Notification = Notification(id: int, client: string, forecast: Day, daysLeft: int, kind: Kind)

  /** addDays(today, 15) */
  const LookaheadDays := 15
  /** the '+15 days' modifier applied on top of it inside the query */
  const ModifierDays := 15

  /** The last forecast day the query admits. */
  function WindowEnd(today: Day): Day
  {
    today + LookaheadDays + ModifierDays
  }

  /** A pending row whose forecast lies in the query's closed window. */
  predicate IsUpcoming(row: Row, today: Day)
  {
    row.entry.status == Pending && today <= row.entry.forecast <= WindowEnd(today)
  }

  /** `daysLeft <= 0 ? 'danger' : 'warning'` */
  function Classify(daysLeft: int): (k: Kind)
    ensures k == Danger <==> daysLeft <= 0
  {
    if daysLeft <= 0 then Danger else Warning
  }

  function ForecastKey(row: Row): int
  {
    row.entry.forecast
  }

  /** The notification built from a selected row; `daysUntil` is
      differenceInDays(parseISO(forecast), now) for the current instant. */
  function ToNotification(row: Row, daysUntil: Day -> int): Notification
  {
    var daysLeft := daysUntil(row.entry.forecast);
    Notification(row.id, row.entry.client, row.entry.forecast, daysLeft, Classify(daysLeft))
  }

  /** The rows the query selects, soonest forecast first. */
  function UpcomingRows(s: Store, today: Day): (rows: seq<Row>)
    ensures forall x :: x in rows <==> x in s.rows && IsUpcoming(x, today)
    ensures SortedBy(rows, ForecastKey, Ascending)
    ensures Valid(s) ==> DistinctIds(rows)
  {
    var due := Filter(s.rows, (row: Row) => IsUpcoming(row, today));
    var selected := SortBy(due, ForecastKey, Ascending);
    assert forall x :: x in selected <==> x in multiset(due);
    assert Valid(s) ==> DistinctIds(selected) by {
      if Valid(s) {
        DistinctIdsOfSubMultiset(due, s.rows);
        DistinctIdsOfSubMultiset(selected, due);
      }
    }
    selected
  }

  /** One notification per row, in the same order. */
  function ToNotifications(rows: seq<Row>, daysUntil: Day -> int): (r: seq<Notification>)
    ensures |r| == |rows|
    ensures forall k :: 0 <= k < |rows| ==> r[k] == ToNotification(rows[k], daysUntil)
  {
    if |rows| == 0 then [] else [ToNotification(rows[0], daysUntil)] + ToNotifications(rows[1..], daysUntil)
  }

  lemma UpcomingComplete(s: Store, today: Day, daysUntil: Day -> int)
    ensures var r := ToNotifications(UpcomingRows(s, today), daysUntil);
      forall row :: row in s.rows && IsUpcoming(row, today) ==> ToNotification(row, daysUntil) in r
  {
    var selected := UpcomingRows(s, today);
    var r := ToNotifications(selected, daysUntil);
    forall row | row in s.rows && IsUpcoming(row, today)
      ensures ToNotification(row, daysUntil) in r
    {
      var k :| 0 <= k < |selected| && selected[k] == row;
      assert r[k] == ToNotification(row, daysUntil);
    }
  }

  lemma UpcomingOrdered(s: Store, today: Day, daysUntil: Day -> int)
    ensures var r := ToNotifications(UpcomingRows(s, today), daysUntil);
      forall i, j :: 0 <= i < j < |r| ==> r[i].forecast <= r[j].forecast
  {
    var selected := UpcomingRows(s, today);
    var r := ToNotifications(selected, daysUntil);
    forall i, j | 0 <= i < j < |r| ensures r[i].forecast <= r[j].forecast {
      assert InOrder(Ascending, ForecastKey(selected[i]), ForecastKey(selected[j]));
    }
  }

  lemma UpcomingFields(s: Store, today: Day, daysUntil: Day -> int)
    ensures var r := ToNotifications(UpcomingRows(s, today), daysUntil);
      && (forall k :: 0 <= k < |r| ==> today <= r[k].forecast <= today + 30)
      && (forall k :: 0 <= k < |r| ==> r[k].daysLeft == daysUntil(r[k].forecast))
      && (forall k :: 0 <= k < |r| ==> (r[k].kind == Danger <==> r[k].daysLeft <= 0))
      && (Valid(s) ==> forall i, j :: 0 <= i < j < |r| ==> r[i].id != r[j].id)
  {
    var selected := UpcomingRows(s, today);
    var r := ToNotifications(selected, daysUntil);
    forall k | 0 <= k < |r| ensures today <= r[k].forecast <= today + 30 {
      assert selected[k] in selected;
    }
  }

  /** getUpcomingNotifications for the UTC day `today`. */
  function GetUpcomingNotifications(s: Store, today: Day, daysUntil: Day -> int): (r: seq<Notification>)
    ensures forall row :: row in s.rows && IsUpcoming(row, today) ==> ToNotification(row, daysUntil) in r
    ensures forall i, j :: 0 <= i < j < |r| ==> r[i].forecast <= r[j].forecast
    ensures forall k :: 0 <= k < |r| ==> today <= r[k].forecast <= today + 30
    ensures forall k :: 0 <= k < |r| ==> r[k].daysLeft == daysUntil(r[k].forecast)
    ensures forall k :: 0 <= k < |r| ==> (r[k].kind == Danger <==> r[k].daysLeft <= 0)
    ensures Valid(s) ==> forall i, j :: 0 <= i < j < |r| ==> r[i].id != r[j].id
  {
    UpcomingComplete(s, today, daysUntil);
    UpcomingOrdered(s, today, daysUntil);
    UpcomingFields(s, today, daysUntil);
    ToNotifications(UpcomingRows(s, today), daysUntil)
  }

  /** Every notification is built from a pending row of the table whose
      forecast lies in the window. */
  lemma NotificationsFromUpcomingRows(s: Store, today: Day, daysUntil: Day -> int)
    ensures var r := GetUpcomingNotifications(s, today, daysUntil);
      forall k :: 0 <= k < |r| ==>
        exists row :: row in s.rows && IsUpcoming(row, today) && r[k] == ToNotification(row, daysUntil)
  {
    var selected := UpcomingRows(s, today);
    var r := ToNotifications(selected, daysUntil);
    forall k | 0 <= k < |r|
      ensures exists row :: row in s.rows && IsUpcoming(row, today) && r[k] == ToNotification(row, daysUntil)
    {
      assert selected[k] in selected;
    }
  }
}

=== FILE: database_properties.dfy ===
/** Properties that relate several statements of the data-access layer:
    what a lookup sees after each kind of write, and the notification window. */
module DatabaseProperties {
  import opened Wrappers
  import opened Calendar
  import opened Database

  /** In a valid table a lookup finds exactly the row that carries the id. */
  lemma LookupFindsRow(s: Store, row: Row)
    requires Valid(s)
    requires row in s.rows
    ensures GetEntryById(s, row.id) == Some(row)
  {
    var i :| 0 <= i < |s.rows| && s.rows[i] == row;
    assert HasId(s, row.id);
  }

  /** Creating an entry and fetching it by the returned id gives back the six
      fields, the new id and the creation time; every other lookup is as before. */
  lemma {:induction false} CreateThenGet(s: Store, e: Entry, now: Timestamp, other: int)
    requires Valid(s)
    ensures var ins := CreateEntry(s, e, now);
      GetEntryById(ins.store, ins.lastId) == Some(Row(ins.lastId, e, now))
    ensures var ins := CreateEntry(s, e, now);
      other != ins.lastId ==> GetEntryById(ins.store, other) == GetEntryById(s, other)
  {
    var ins := CreateEntry(s, e, now);
    LookupFindsRow(ins.store, Row(ins.lastId, e, now));
    if other != ins.lastId {
      if HasId(s, other) {
        var row := GetEntryById(s, other).value;
        LookupFindsRow(ins.store, row);
      } else {
        assert !HasId(ins.store, other);
      }
    }
  }

  /** After a successful batch every entry is found under its own fresh id,
      in list order, and each fresh id is above every id the table had. */
  lemma {:induction false} BatchThenGet(s: Store, es: seq<Entry>, now: Timestamp, i: int)
    requires Valid(s)
    requires 0 <= i < |es|
    ensures CreateBatchEntries(s, es, now).Success?
    ensures var st := CreateBatchEntries(s, es, now).value.store;
      GetEntryById(st, s.nextId + i) == Some(Row(s.nextId + i, es[i], now))
    ensures forall j :: 0 <= j < |s.rows| ==> s.rows[j].id < s.nextId + i
  {
    var st := CreateBatchEntries(s, es, now).value.store;
    assert st.rows[|s.rows| + i] == Row(s.nextId + i, es[i], now);
    LookupFindsRow(st, Row(s.nextId + i, es[i], now));
  }

  /** An update replaces the six fields of the row with that id and keeps its
      id and creation time; the other rows' lookups are unchanged. */
  lemma {:induction false} UpdateThenGet(s: Store, id: int, e: Entry, other: int)
    requires Valid(s)
    ensures var found := GetEntryById(s, id);
      found.Some? ==> GetEntryById(UpdateEntry(s, id, e), id) == Some(found.value.(entry := e))
    ensures !HasId(s, id) ==> GetEntryById(UpdateEntry(s, id, e), id).None?
    ensures other != id ==> GetEntryById(UpdateEntry(s, id, e), other) == GetEntryById(s, other)
  {
    var r := UpdateEntry(s, id, e);
    if HasId(s, id) {
      var row := GetEntryById(s, id).value;
      var k :| 0 <= k < |s.rows| && s.rows[k] == row;
      assert r.rows[k] == row.(entry := e);
      LookupFindsRow(r, row.(entry := e));
    }
    if other != id && HasId(s, other) {
      var row := GetEntryById(s, other).value;
      var k :| 0 <= k < |s.rows| && s.rows[k] == row;
      assert r.rows[k] == row;
      LookupFindsRow(r, row);
    }
    if other != id && !HasId(s, other) {
      assert !HasId(r, other);
    }
  }

  /** After a delete the id is gone and every other lookup is as before. */
  lemma {:induction false} DeleteThenGet(s: Store, id: int, other: int)
    requires Valid(s)
    ensures GetEntryById(DeleteEntry(s, id), id).None?
    ensures other != id ==> GetEntryById(DeleteEntry(s, id), other) == GetEntryById(s, other)
  {
    var r := DeleteEntry(s, id);
    if other != id {
      if HasId(s, other) {
        var row := GetEntryById(s, other).value;
        assert multiset(r.rows)[row] == multiset(s.rows)[row];
        assert row in r.rows;
        LookupFindsRow(r, row);
      } else {
        forall i | 0 <= i < |r.rows| ensures r.rows[i].id != other {
          assert r.rows[i] in multiset(r.rows);
        }
      }
    }
  }

  /** A pending row is reported exactly when its forecast lies between today
      and today + 30 days, both included: a forecast of yesterday is not
      reported, one 20 days ahead is. */
  lemma {:induction false} WindowBounds(s: Store, today: Day, daysUntil: Day -> int, row: Row)
    requires row in s.rows && row.entry.status == Pending
    ensures var r := GetUpcomingNotifications(s, today, daysUntil);
      (ToNotification(row, daysUntil) in r) <==> today <= row.entry.forecast <= today + 30
  {
    var r := GetUpcomingNotifications(s, today, daysUntil);
    if ToNotification(row, daysUntil) in r {
      var k :| 0 <= k < |r| && r[k] == ToNotification(row, daysUntil);
      assert r[k].forecast == row.entry.forecast;
    }
  }
}

=== FILE: jstext.dfy ===
/** The string conversions the program relies on when it compares months as
    text: Number.prototype.toString on integers, String.prototype.padStart,
    and the two-digit month that SQLite's strftime('%m', …) prints. */
module JsText {

  predicate IsDigit(c: char)
  {
    '0' <= c <= '9'
  }

  function DigitChar(d: int): (c: char)
    requires 0 <= d < 10
    ensures IsDigit(c)
    ensures c as int - '0' as int == d
  {
    ('0' as int + d) as char
  }

  /** Decimal notation of a natural number, without leading zeros. */
  function NatToString(n: nat): (s: string)
    ensures |s| >= 1
    ensures forall i :: 0 <= i < |s| ==> IsDigit(s[i])
    ensures n < 10 <==> |s| == 1
    ensures n >= 100 ==> |s| >= 3
    decreases n
  {
    if n < 10 then [DigitChar(n)] else NatToString(n / 10) + [DigitChar(n % 10)]
  }

  /** `n.toString()` for an integer `n`. */
  function IntToString(n: int): (s: string)
    ensures |s| >= 1
    ensures n < 0 <==> s[0] == '-'
  {
    if n < 0 then "-" + NatToString(-n) else NatToString(n)
  }

  /** `s.padStart(width, fill)` for a one-character `fill`. */
  function PadStart(s: string, width: nat, fill: char): (r: string)
    ensures |r| == if |s| >= width then |s| else width
    ensures r[|r| - |s|..] == s
    ensures forall i :: 0 <= i < |r| - |s| ==> r[i] == fill
  {
    if |s| >= width then s else seq(width - |s|, _ => fill) + s
  }

  /** Two zero-padded decimal digits, as strftime's `%m` prints a month. */
  function TwoDigits(n: int): (s: string)
    requires 0 <= n < 100
    ensures |s| == 2 && IsDigit(s[0]) && IsDigit(s[1])
    ensures (s[0] as int - '0' as int) * 10 + (s[1] as int - '0' as int) == n
  {
    [DigitChar(n / 10), DigitChar(n % 10)]
  }

  /** Distinct numbers print differently. */
  lemma {:induction false} NatToStringInjective(a: nat, b: nat)
    requires NatToString(a) == NatToString(b)
    ensures a == b
    decreases a
  {
    if a < 10 || b < 10 {
      assert |NatToString(a)| == 1 && |NatToString(b)| == 1;
    } else {
      var sa, sb := NatToString(a), NatToString(b);
      assert sa[..|sa| - 1] == NatToString(a / 10);
      assert sb[..|sb| - 1] == NatToString(b / 10);
      NatToStringInjective(a / 10, b / 10);
      assert sa[|sa| - 1] == DigitChar(a % 10);
      assert sb[|sb| - 1] == DigitChar(b % 10);
    }
  }

  lemma IntToStringInjective(a: int, b: int)
    requires IntToString(a) == IntToString(b)
    ensures a == b
  {
    if a < 0 {
      assert IntToString(a)[1..] == NatToString(-a);
      assert IntToString(b)[1..] == NatToString(-b);
      NatToStringInjective(-a, -b);
    } else {
      NatToStringInjective(a, b);
    }
  }

  /** A number below 100, padded to two places, is its two digits. */
  lemma PaddedBelowHundred(m: int)
    requires 0 <= m < 100
    ensures PadStart(IntToString(m), 2, '0') == [DigitChar(m / 10), DigitChar(m % 10)]
  {
    if m < 10 {
      assert IntToString(m) == [DigitChar(m)];
    } else {
      assert NatToString(m / 10) == [DigitChar(m / 10)];
      assert IntToString(m) == NatToString(m / 10) + [DigitChar(m % 10)];
    }
  }

  lemma DigitPairsEqual(a: int, b: int, c: int, d: int)
    requires 0 <= a < 10 && 0 <= b < 10 && 0 <= c < 10 && 0 <= d < 10
    ensures [DigitChar(a), DigitChar(b)] == [DigitChar(c), DigitChar(d)] <==> a == c && b == d
  {
    if [DigitChar(a), DigitChar(b)] == [DigitChar(c), DigitChar(d)] {
      assert DigitChar(a) == DigitChar(c) && DigitChar(b) == DigitChar(d);
    }
  }

  /** `String(m).padStart(2, '0')` is the two-digit text of `k` exactly when
      `m` is `k`: no other integer (negative, three digits, …) pads to it. */
  lemma PaddedMatchesTwoDigits(m: int, k: int)
    requires 0 <= k < 100
    ensures PadStart(IntToString(m), 2, '0') == TwoDigits(k) <==> m == k
  {
    var t := IntToString(m);
    var p := PadStart(t, 2, '0');
    var two := TwoDigits(k);
    if m < 0 {
      assert |t| >= 2 && p == t && p[0] == '-';
      assert p[0] != two[0];
    } else if m < 100 {
      PaddedBelowHundred(m);
      DigitPairsEqual(m / 10, m % 10, k / 10, k % 10);
    } else {
      assert |p| >= 3;
    }
  }
}

=== FILE: seqs.dfy ===
/** Order-preserving filtering of sequences (Array.prototype.filter in the
    browser, a WHERE clause in SQL) and the subsequence relation it keeps. */
module Seqs {

  /** `xs` can be obtained from `ys` by deleting elements, keeping the order. */
  predicate IsSubseq<T(==)>(xs: seq<T>, ys: seq<T>)
    decreases |ys|
  {
    if |xs| == 0 then true
    else if |ys| == 0 then false
    else if xs[0] == ys[0] then IsSubseq(xs[1..], ys[1..])
    else IsSubseq(xs, ys[1..])
  }

  /** Every sequence is a subsequence of itself. */
  lemma {:induction false} SubseqReflexive<T>(xs: seq<T>)
    ensures IsSubseq(xs, xs)
    decreases |xs|
  {
    if |xs| > 0 {
      SubseqReflexive(xs[1..]);
    }
  }

  /** Every element of a subsequence occurs in the sequence it was taken from. */
  lemma {:induction false} SubseqElements<T>(xs: seq<T>, ys: seq<T>)
    requires IsSubseq(xs, ys)
    ensures forall x :: x in xs ==> x in ys
    decreases |ys|
  {
    if |xs| == 0 {
    } else if xs[0] == ys[0] {
      SubseqElements(xs[1..], ys[1..]);
      forall x | x in xs
        ensures x in ys
      {
        if x != xs[0] {
          assert x in xs[1..];
          assert x in ys[1..];
        }
      }
    } else {
      SubseqElements(xs, ys[1..]);
      forall x | x in xs
        ensures x in ys
      {
        assert x in ys[1..];
      }
    }
  }

  /** The elements of `xs` that satisfy `p`, in their original order. */
  function Filter<T(==,!new)>(xs: seq<T>, p: T -> bool): (r: seq<T>)
    ensures forall i :: 0 <= i < |r| ==> p(r[i])
    ensures forall x :: multiset(r)[x] == if p(x) then multiset(xs)[x] else 0
    ensures forall x :: x in r <==> x in xs && p(x)
    ensures IsSubseq(r, xs)
    ensures (forall i :: 0 <= i < |xs| ==> p(xs[i])) ==> r == xs
  {
    if |xs| == 0 then []
    else
      var rest := Filter(xs[1..], p);
      var r := if p(xs[0]) then [xs[0]] + rest else rest;
      FilterStepCounts(xs, p, rest, r);
      FilterStepOrder(xs, p, rest, r);
      r
  }

  /** One step of Filter keeps the element counts and memberships. */
  lemma FilterStepCounts<T(!new)>(xs: seq<T>, p: T -> bool, rest: seq<T>, r: seq<T>)
    requires |xs| > 0
    requires forall i :: 0 <= i < |rest| ==> p(rest[i])
    requires forall x :: multiset(rest)[x] == if p(x) then multiset(xs[1..])[x] else 0
    requires r == if p(xs[0]) then [xs[0]] + rest else rest
    ensures forall i :: 0 <= i < |r| ==> p(r[i])
    ensures forall x :: multiset(r)[x] == if p(x) then multiset(xs)[x] else 0
    ensures forall x :: x in r <==> x in xs && p(x)
  {
    assert xs == [xs[0]] + xs[1..];
    assert multiset(xs) == multiset{xs[0]} + multiset(xs[1..]);
    if p(xs[0]) {
      assert forall i :: 0 < i < |r| ==> r[i] == rest[i - 1];
      assert multiset(r) == multiset{xs[0]} + multiset(rest);
    }
    forall x ensures x in r <==> x in xs && p(x) {
      assert x in r <==> multiset(r)[x] > 0;
      assert x in xs <==> multiset(xs)[x] > 0;
    }
  }

  /** One step of Filter keeps the subsequence relation, and keeps everything
      when every element passes. */
  lemma FilterStepOrder<T>(xs: seq<T>, p: T -> bool, rest: seq<T>, r: seq<T>)
    requires |xs| > 0
    requires forall i :: 0 <= i < |rest| ==> p(rest[i])
    requires IsSubseq(rest, xs[1..])
    requires (forall i :: 0 <= i < |xs[1..]| ==> p(xs[1..][i])) ==> rest == xs[1..]
    requires r == if p(xs[0]) then [xs[0]] + rest else rest
    ensures IsSubseq(r, xs)
    ensures (forall i :: 0 <= i < |xs| ==> p(xs[i])) ==> r == xs
  {
    assert xs == [xs[0]] + xs[1..];
    if p(xs[0]) {
      assert r[0] == xs[0] && r[1..] == rest;
      if forall i :: 0 <= i < |xs| ==> p(xs[i]) {
        assert forall i :: 0 <= i < |xs[1..]| ==> xs[1..][i] == xs[i + 1];
      }
    } else {
      assert |rest| > 0 ==> rest[0] != xs[0];
    }
  }

  /** Filtering with two predicates that agree on every element gives the same result. */
  lemma {:induction false} FilterCongruent<T(!new)>(xs: seq<T>, p: T -> bool, q: T -> bool)
    requires forall x :: p(x) == q(x)
    ensures Filter(xs, p) == Filter(xs, q)
    decreases |xs|
  {
    if |xs| > 0 {
      FilterCongruent(xs[1..], p, q);
    }
  }
}

=== FILE: server.dfy ===
/** The REST handlers (backend/server.js) as one pure function from the
    table and a request to the new table and the response. The handlers
    validate the body first and only then call the data-access layer; a
    failing storage call turns into a 500 and changes nothing. */
module Server {
  import opened Wrappers
  import opened Calendar
  import opened Database

  /** A JSON body for one entry. `None` is a property that is missing or
      null; for the two dates it also covers the empty string, since every
      non-empty date string is truthy. Commissions are in cents. */
  datatype Draft = Draft(
    client: Option<string>,
    date: Option<Day>,
    product: Option<string>,
    commission: Option<int>,
    forecast: Option<Day>,
    status: Option<string>)

  /** JavaScript truthiness of the three kinds of property. */
  predicate TruthyText(v: Option<string>)
  {
    v.Some? && v.value != ""
  }

  predicate TruthyNumber(v: Option<int>)
  {
    v.Some? && v.value != 0
  }

  predicate TruthyDate(v: Option<Day>)
  {
    v.Some?
  }

  /** The body passes `!entry.client || !entry.date || … || !entry.status`. */
  predicate Complete(d: Draft)
  {
    && TruthyText(d.client)
    && TruthyDate(d.date)
    && TruthyText(d.product)
    && TruthyNumber(d.commission)
    && TruthyDate(d.forecast)
    && TruthyText(d.status)
  }

  /** The six fields a complete body supplies. */
  function ToEntry(d: Draft): (e: Entry)
    requires Complete(d)
    ensures e.client != "" && e.product != "" && e.status != "" && e.commission != 0
  {
    Entry(d.client.value, d.date.value, d.product.value, d.commission.value, d.forecast.value, d.status.value)
  }

  predicate AllComplete(ds: seq<Draft>)
  {
    forall i :: 0 <= i < |ds| ==> Complete(ds[i])
  }

  function ToEntries(ds: seq<Draft>): (es: seq<Entry>)
    requires AllComplete(ds)
    ensures |es| == |ds|
    ensures forall i :: 0 <= i < |ds| ==> es[i] == ToEntry(ds[i])
  {
    seq(|ds|, i requires 0 <= i < |ds| => ToEntry(ds[i]))
  }

  /** The body of POST /entries/batch: an array of entry bodies or anything else. */
  datatype Payload = NotAnArray | Items(drafts: seq<Draft>)

  datatype Request =
    | ListAll                               // GET    /api/entries
    | FetchOne(id: int)                     // GET    /api/entries/:id
    | Create(body: Draft)                   // POST   /api/entries
    | CreateBatch(payload: Payload)         // POST   /api/entries/batch
    | Replace(id: int, body: Draft)         // PUT    /api/entries/:id
    | Remove(id: int)                       // DELETE /api/entries/:id
    | Notifications                         // GET    /api/notifications

  /** What a request sees besides the table: the creation timestamp, the
      current UTC day, differenceInDays from now to a forecast, and whether
      the storage call fails. */
  datatype Env = Env(now: Timestamp, today: Day, daysUntil: Day -> int, storageFails: bool)

  datatype Body =
    | Rows(rows: seq<Row>)
    | OneRow(row: Row)
    | WithId(id: int, entry: Entry)         // { id, ...entry }
    | Count(count: nat)                     // { count }
    | Acknowledged                          // { success: true }
    | Notices(items: seq<Notification>)
    | Error(message: string)                // { error }

  datatype Response = Response(status: int, body: Body)

  datatype Outcome = Outcome(store: Store, response: Response)

  const Ok := 200
  const CreatedStatus := 201
  const BadRequest := 400
  const NotFound := 404
  const ServerError := 500

  const MissingFields := "Todos os campos são obrigatórios"
  const MissingFieldsInBatch := "Todos os campos são obrigatórios em cada entrada"
  const NoEntries := "Nenhuma entrada fornecida"
  const EntryNotFound := "Entrada não encontrada"
  const ListFailed := "Erro ao buscar entradas"
  const FetchFailed := "Erro ao buscar entrada"
  const CreateFailed := "Erro ao criar entrada"
  const BatchFailed := "Erro ao criar entradas em lote"
  const UpdateFailed := "Erro ao atualizar entrada"
  const DeleteFailed := "Erro ao excluir entrada"
  const NotificationsFailed := "Erro ao buscar notificações"

  function Fail(s: Store, status: int, message: string): (o: Outcome)
    ensures o.store == s && o.response.status == status
  {
    Outcome(s, Response(status, Error(message)))
  }

  /** GET /api/entries */
  function ListRoute(s: Store, env: Env): (o: Outcome)
    ensures o.store == s
    ensures env.storageFails ==> o.response == Response(ServerError, Error(ListFailed))
    ensures !env.storageFails ==>
      && o.response.status == Ok && o.response.body.Rows?
      && multiset(o.response.body.rows) == multiset(s.rows)
      && forall i, j :: 0 <= i < j < |o.response.body.rows| ==>
           o.response.body.rows[i].entry.date >= o.response.body.rows[j].entry.date
  {
    if env.storageFails then Fail(s, ServerError, ListFailed)
    else Outcome(s, Response(Ok, Rows(GetAllEntries(s))))
  }

  /** GET /api/entries/:id */
  function FetchRoute(s: Store, env: Env, id: int): (o: Outcome)
    ensures o.store == s
    ensures env.storageFails ==> o.response == Response(ServerError, Error(FetchFailed))
    ensures !env.storageFails && !HasId(s, id) ==> o.response == Response(NotFound, Error(EntryNotFound))
    ensures !env.storageFails && HasId(s, id) ==>
      && o.response.status == Ok && o.response.body.OneRow?
      && o.response.body.row in s.rows && o.response.body.row.id == id
  {
    if env.storageFails then Fail(s, ServerError, FetchFailed)
    else match GetEntryById(s, id)
      case None => Fail(s, NotFound, EntryNotFound)
      case Some(row) => Outcome(s, Response(Ok, OneRow(row)))
  }

  /** POST /api/entries */
  function CreateRoute(s: Store, env: Env, d: Draft): (o: Outcome)
    ensures !Complete(d) ==> o == Outcome(s, Response(BadRequest, Error(MissingFields)))
    ensures Complete(d) && env.storageFails ==> o == Outcome(s, Response(ServerError, Error(CreateFailed)))
    ensures Complete(d) && !env.storageFails ==>
      && o.response == Response(CreatedStatus, WithId(s.nextId, ToEntry(d)))
      && o.store.rows == s.rows + [Row(s.nextId, ToEntry(d), env.now)]
      && o.store.nextId == s.nextId + 1
  {
    if !Complete(d) then Fail(s, BadRequest, MissingFields)
    else if env.storageFails then Fail(s, ServerError, CreateFailed)
    else
      var ins := CreateEntry(s, ToEntry(d), env.now);
      Outcome(ins.store, Response(CreatedStatus, WithId(ins.lastId, ToEntry(d))))
  }

  /** POST /api/entries/batch: every element is checked before the single
      INSERT runs, so one incomplete element rejects the whole list. */
  function BatchRoute(s: Store, env: Env, p: Payload): (o: Outcome)
    ensures p.NotAnArray? || |p.drafts| == 0 ==> o == Outcome(s, Response(BadRequest, Error(NoEntries)))
    ensures p.Items? && |p.drafts| > 0 && !AllComplete(p.drafts) ==>
      o == Outcome(s, Response(BadRequest, Error(MissingFieldsInBatch)))
    ensures p.Items? && |p.drafts| > 0 && AllComplete(p.drafts) && env.storageFails ==>
      o == Outcome(s, Response(ServerError, Error(BatchFailed)))
    ensures p.Items? && |p.drafts| > 0 && AllComplete(p.drafts) && !env.storageFails ==>
      && o.response == Response(CreatedStatus, Count(|p.drafts|))
      && |o.store.rows| == |s.rows| + |p.drafts|
      && o.store.rows[..|s.rows|] == s.rows
      && forall i :: 0 <= i < |p.drafts| ==>
           o.store.rows[|s.rows| + i] == Row(s.nextId + i, ToEntry(p.drafts[i]), env.now)
    ensures o.store == s || (p.Items? && |o.store.rows| == |s.rows| + |p.drafts|)
  {
    if p.NotAnArray? || |p.drafts| == 0 then Fail(s, BadRequest, NoEntries)
    else if !AllComplete(p.drafts) then Fail(s, BadRequest, MissingFieldsInBatch)
    else if env.storageFails then Fail(s, ServerError, BatchFailed)
    else
      match CreateBatchEntries(s, ToEntries(p.drafts), env.now)
      case Failure(_) => Fail(s, ServerError, BatchFailed)
      case Success(changed) => Outcome(changed.store, Response(CreatedStatus, Count(changed.changes)))
  }

  /** PUT /api/entries/:id: the same validation as create, no existence
      check, and the response echoes the path id and the body. */
  function ReplaceRoute(s: Store, env: Env, id: int, d: Draft): (o: Outcome)
    ensures !Complete(d) ==> o == Outcome(s, Response(BadRequest, Error(MissingFields)))
    ensures Complete(d) && env.storageFails ==> o == Outcome(s, Response(ServerError, Error(UpdateFailed)))
    ensures Complete(d) && !env.storageFails ==> o.response == Response(Ok, WithId(id, ToEntry(d)))
    ensures Complete(d) && !env.storageFails && !HasId(s, id) ==> o.store == s
    ensures Complete(d) && !env.storageFails ==>
      |o.store.rows| == |s.rows| && forall i :: 0 <= i < |s.rows| ==>
        o.store.rows[i] == if s.rows[i].id == id then s.rows[i].(entry := ToEntry(d)) else s.rows[i]
  {
    if !Complete(d) then Fail(s, BadRequest, MissingFields)
    else if env.storageFails then Fail(s, ServerError, UpdateFailed)
    else Outcome(UpdateEntry(s, id, ToEntry(d)), Response(Ok, WithId(id, ToEntry(d))))
  }

  /** DELETE /api/entries/:id: success whether or not the id existed. */
  function RemoveRoute(s: Store, env: Env, id: int): (o: Outcome)
    ensures env.storageFails ==> o == Outcome(s, Response(ServerError, Error(DeleteFailed)))
    ensures !env.storageFails ==> o.response == Response(Ok, Acknowledged) && !HasId(o.store, id)
    ensures !env.storageFails ==>
      forall x :: multiset(o.store.rows)[x] == if x.id != id then multiset(s.rows)[x] else 0
  {
    if env.storageFails then Fail(s, ServerError, DeleteFailed)
    else Outcome(DeleteEntry(s, id), Response(Ok, Acknowledged))
  }

  /** GET /api/notifications */
  function NotificationsRoute(s: Store, env: Env): (o: Outcome)
    ensures o.store == s
    ensures env.storageFails ==> o.response == Response(ServerError, Error(NotificationsFailed))
    ensures !env.storageFails ==>
      o.response == Response(Ok, Notices(GetUpcomingNotifications(s, env.today, env.daysUntil)))
  {
    if env.storageFails then Fail(s, ServerError, NotificationsFailed)
    else Outcome(s, Response(Ok, Notices(GetUpcomingNotifications(s, env.today, env.daysUntil))))
  }

  predicate IsSuccess(status: int)
  {
    status == Ok || status == CreatedStatus
  }

  predicate ReadOnly(req: Request)
  {
    req.ListAll? || req.FetchOne? || req.Notifications?
  }

  /** One request against the table. */
  function Handle(s: Store, env: Env, req: Request): (o: Outcome)
    ensures o.response.status in {Ok, CreatedStatus, BadRequest, NotFound, ServerError}
    ensures !IsSuccess(o.response.status) ==> o.store == s
    ensures ReadOnly(req) ==> o.store == s
    ensures Valid(s) ==> Valid(o.store)
    ensures o.store.nextId >= s.nextId
    ensures forall row :: row in o.store.rows ==> row.id >= s.nextId || HasId(s, row.id)
  {
    match req
    case ListAll => ListRoute(s, env)
    case FetchOne(id) => FetchRoute(s, env, id)
    case Create(d) => CreateRoute(s, env, d)
    case CreateBatch(p) => BatchRoute(s, env, p)
    case Replace(id, d) => ReplaceRoute(s, env, id, d)
    case Remove(id) => RemoveRoute(s, env, id)
    case Notifications => NotificationsRoute(s, env)
  }
}

=== FILE: server_properties.dfy ===
/** Properties of sequences of requests and of request pairs, as a client
    of the REST API sees them. */
module ServerProperties {
  import opened Wrappers
  import opened Database
  import opened Server
  import DatabaseProperties

  datatype Step = Step(env: Env, req: Request)

  /** The table after serving the requests one at a time, in order. */
  function Run(s: Store, steps: seq<Step>): Store
    decreases |steps|
  {
    if |steps| == 0 then s else Run(Handle(s, steps[0].env, steps[0].req).store, steps[1..])
  }

  /** Every row of `t` whose id was already in `s` still carries the
      created_at that `s` had for that id: no statement rewrites it, and an
      id is never handed out again with a new creation time. */
  predicate KeepsCreationTimes(s: Store, t: Store)
  {
    forall row :: row in t.rows && HasId(s, row.id) ==>
      GetEntryById(s, row.id).Some? && GetEntryById(s, row.id).value.createdAt == row.createdAt
  }

  /** In a valid table, a table whose rows are old rows or carry fresh ids
      keeps the creation times. */
  lemma OldOrFreshKeepsCreationTimes(s: Store, t: Store)
    requires Valid(s)
    requires forall row :: row in t.rows ==> row in s.rows || row.id >= s.nextId
    ensures KeepsCreationTimes(s, t)
  {
    forall row | row in t.rows && HasId(s, row.id)
      ensures GetEntryById(s, row.id).Some? && GetEntryById(s, row.id).value.createdAt == row.createdAt
    {
      var i :| 0 <= i < |s.rows| && s.rows[i].id == row.id;
      DatabaseProperties.LookupFindsRow(s, row);
    }
  }

  /** One request never changes the creation time of an id it keeps. */
  lemma HandleKeepsCreationTimes(s: Store, env: Env, req: Request)
    requires Valid(s)
    ensures KeepsCreationTimes(s, Handle(s, env, req).store)
  {
    var t := Handle(s, env, req).store;
    if req.Create? {
      assert t == CreateRoute(s, env, req.body).store;
      CreateKeepsCreationTimes(s, env, req.body);
    } else if req.CreateBatch? {
      assert t == BatchRoute(s, env, req.payload).store;
      BatchKeepsCreationTimes(s, env, req.payload);
    } else if req.Remove? {
      assert t == RemoveRoute(s, env, req.id).store;
      RemoveKeepsCreationTimes(s, env, req.id);
    } else if req.Replace? {
      assert t == ReplaceRoute(s, env, req.id, req.body).store;
      ReplaceKeepsCreationTimes(s, env, req.id, req.body);
    } else {
      assert t == s;
      OldOrFreshKeepsCreationTimes(s, s);
    }
  }

  lemma CreateKeepsCreationTimes(s: Store, env: Env, d: Draft)
    requires Valid(s)
    ensures KeepsCreationTimes(s, CreateRoute(s, env, d).store)
  {
    var t := CreateRoute(s, env, d).store;
    assert forall row :: row in t.rows ==> row in s.rows || row.id >= s.nextId;
    OldOrFreshKeepsCreationTimes(s, t);
  }

  lemma BatchKeepsCreationTimes(s: Store, env: Env, p: Payload)
    requires Valid(s)
    ensures KeepsCreationTimes(s, BatchRoute(s, env, p).store)
  {
    var t := BatchRoute(s, env, p).store;
    if t != s {
      var added := NewRows(ToEntries(p.drafts), s.nextId, env.now);
      assert t.rows == s.rows + added;
      assert forall row :: row in added ==> row.id >= s.nextId;
    }
    OldOrFreshKeepsCreationTimes(s, t);
  }

  lemma RemoveKeepsCreationTimes(s: Store, env: Env, id: int)
    requires Valid(s)
    ensures KeepsCreationTimes(s, RemoveRoute(s, env, id).store)
  {
    var t := RemoveRoute(s, env, id).store;
    forall row | row in t.rows ensures row in s.rows {
      assert multiset(t.rows)[row] > 0;
    }
    OldOrFreshKeepsCreationTimes(s, t);
  }

  lemma ReplaceKeepsCreationTimes(s: Store, env: Env, id: int, d: Draft)
    requires Valid(s)
    ensures KeepsCreationTimes(s, ReplaceRoute(s, env, id, d).store)
  {
    var t := ReplaceRoute(s, env, id, d).store;
    if t == s {
      OldOrFreshKeepsCreationTimes(s, s);
    } else {
      forall row | row in t.rows && HasId(s, row.id)
        ensures GetEntryById(s, row.id).Some? && GetEntryById(s, row.id).value.createdAt == row.createdAt
      {
        var i :| 0 <= i < |t.rows| && t.rows[i] == row;
        DatabaseProperties.LookupFindsRow(s, s.rows[i]);
      }
    }
  }

  /** Any sequence of requests keeps the table valid, never lowers the next
      id, and never brings back an id: every row of the final table either
      was there at the start (by id, with its creation time unchanged) or
      got an id that was fresh at the start. */
  lemma {:induction false} RunKeepsInvariant(s: Store, steps: seq<Step>)
    requires Valid(s)
    ensures Valid(Run(s, steps))
    ensures Run(s, steps).nextId >= s.nextId
    ensures forall row :: row in Run(s, steps).rows ==> row.id >= s.nextId || HasId(s, row.id)
    ensures KeepsCreationTimes(s, Run(s, steps))
    decreases |steps|
  {
    if |steps| == 0 {
      OldOrFreshKeepsCreationTimes(s, s);
    } else {
      var s1 := Handle(s, steps[0].env, steps[0].req).store;
      RunKeepsInvariant(s1, steps[1..]);
      HandleKeepsCreationTimes(s, steps[0].env, steps[0].req);
      var t := Run(s, steps);
      assert t == Run(s1, steps[1..]);
      forall row | row in t.rows
        ensures row.id >= s.nextId || HasId(s, row.id)
      {
        if row.id < s1.nextId {
          var i :| 0 <= i < |s1.rows| && s1.rows[i].id == row.id;
          assert s1.rows[i] in s1.rows;
        }
      }
      forall row | row in t.rows && HasId(s, row.id)
        ensures GetEntryById(s, row.id).Some? && GetEntryById(s, row.id).value.createdAt == row.createdAt
      {
        var i :| 0 <= i < |s.rows| && s.rows[i].id == row.id;
        assert row.id < s1.nextId;
        assert HasId(s1, row.id);
        var r1 := GetEntryById(s1, row.id).value;
        assert r1 in s1.rows && HasId(s, r1.id);
      }
    }
  }

  /** Serving `a` and then `b` is serving `a + b`. */
  lemma {:induction false} RunSplit(s: Store, a: seq<Step>, b: seq<Step>)
    ensures Run(s, a + b) == Run(Run(s, a), b)
    decreases |a|
  {
    if |a| > 0 {
      assert (a + b)[0] == a[0];
      assert (a + b)[1..] == a[1..] + b;
      var s1 := Handle(s, a[0].env, a[0].req).store;
      RunSplit(s1, a[1..], b);
      assert Run(s, a + b) == Run(s1, a[1..] + b);
      assert Run(s, a) == Run(s1, a[1..]);
    } else {
      assert a + b == b;
    }
  }

  /** No id is ever handed out twice. Between any two moments j <= k of a
      run, the next id does not go down, and every row present at k either
      was present (by id, with the same creation time) at j or got an id
      that was still fresh at j, so an id deleted before k never comes back. */
  lemma NoIdReused(s: Store, steps: seq<Step>, j: nat, k: nat)
    requires Valid(s)
    requires j <= k <= |steps|
    ensures var sj, sk := Run(s, steps[..j]), Run(s, steps[..k]);
      && Valid(sk)
      && sk.nextId >= sj.nextId
      && (forall row :: row in sk.rows ==> row.id >= sj.nextId || HasId(sj, row.id))
      && KeepsCreationTimes(sj, sk)
  {
    assert steps[..k] == steps[..j] + steps[j..k];
    RunSplit(s, steps[..j], steps[j..k]);
    RunKeepsInvariant(s, steps[..j]);
    RunKeepsInvariant(Run(s, steps[..j]), steps[j..k]);
  }

  /** Every table the server can reach from the freshly created one is valid,
      so the round-trip properties, which assume a valid table, apply to it. */
  lemma ReachableValid(steps: seq<Step>)
    ensures Valid(Run(EmptyStore(), steps))
    ensures forall row :: row in Run(EmptyStore(), steps).rows ==> row.id >= 1
  {
    RunKeepsInvariant(EmptyStore(), steps);
  }

  /** POST /api/entries with a complete body, then GET /api/entries/<the id
      in the response>, returns the stored row with the submitted fields. */
  lemma CreateThenFetch(s: Store, env1: Env, env2: Env, d: Draft)
    requires Valid(s) && Complete(d)
    requires !env1.storageFails && !env2.storageFails
    ensures var created := Handle(s, env1, Create(d));
      && created.response.status == CreatedStatus
      && created.response.body == WithId(s.nextId, ToEntry(d))
      && Handle(created.store, env2, FetchOne(s.nextId)).response
           == Response(Ok, OneRow(Row(s.nextId, ToEntry(d), env1.now)))
  {
    DatabaseProperties.CreateThenGet(s, ToEntry(d), env1.now, s.nextId);
  }

  /** DELETE /api/entries/:id, then GET /api/entries/:id, answers 404. */
  lemma RemoveThenFetch(s: Store, env1: Env, env2: Env, id: int)
    requires !env1.storageFails && !env2.storageFails
    ensures var removed := Handle(s, env1, Remove(id));
      && removed.response == Response(Ok, Acknowledged)
      && Handle(removed.store, env2, FetchOne(id)).response == Response(NotFound, Error(EntryNotFound))
  {
  }

  /** Validation comes first: an incomplete body is answered 400 and leaves
      the table alone whether or not the storage would have failed. */
  lemma ValidationBeforeStorage(s: Store, env: Env, id: int, d: Draft)
    requires !Complete(d)
    ensures Handle(s, env, Create(d)) == Outcome(s, Response(BadRequest, Error(MissingFields)))
    ensures Handle(s, env, Replace(id, d)) == Outcome(s, Response(BadRequest, Error(MissingFields)))
    ensures Handle(s, env, Create(d)) == Handle(s, env.(storageFails := !env.storageFails), Create(d))
  {
  }

  /** A zero commission is falsy, so it is refused like a missing one, on
      its own and inside any batch. */
  lemma ZeroCommissionRejected(s: Store, env: Env, d: Draft, ds: seq<Draft>)
    requires d.commission == Some(0)
    requires d in ds
    ensures Handle(s, env, Create(d)) == Outcome(s, Response(BadRequest, Error(MissingFields)))
    ensures Handle(s, env, CreateBatch(Items(ds))) == Outcome(s, Response(BadRequest, Error(MissingFieldsInBatch)))
  {
    var i :| 0 <= i < |ds| && ds[i] == d;
    assert !Complete(ds[i]);
  }

  /** A batch either adds all its N entries under N fresh, distinct ids or
      adds nothing. */
  lemma {:induction false} BatchAllOrNothing(s: Store, env: Env, ds: seq<Draft>)
    requires Valid(s)
    ensures var o := Handle(s, env, CreateBatch(Items(ds)));
      || (o.store == s && o.response.status != CreatedStatus)
      || (&& o.response == Response(CreatedStatus, Count(|ds|))
          && |o.store.rows| == |s.rows| + |ds|
          && forall i :: 0 <= i < |ds| ==>
               GetEntryById(o.store, s.nextId + i) == Some(Row(s.nextId + i, ToEntry(ds[i]), env.now)))
  {
    var o := Handle(s, env, CreateBatch(Items(ds)));
    if o.response.status == CreatedStatus {
      forall i | 0 <= i < |ds|
        ensures GetEntryById(o.store, s.nextId + i) == Some(Row(s.nextId + i, ToEntry(ds[i]), env.now))
      {
        DatabaseProperties.BatchThenGet(s, ToEntries(ds), env.now, i);
      }
    }
  }

  /** PUT on an id that does not exist still answers 200 with the echo and
      changes nothing. */
  lemma ReplaceMissingIdEchoes(s: Store, env: Env, id: int, d: Draft)
    requires Complete(d) && !env.storageFails && !HasId(s, id)
    ensures Handle(s, env, Replace(id, d)) == Outcome(s, Response(Ok, WithId(id, ToEntry(d))))
  {
  }
}

=== FILE: sorting.dfy ===
/** Ordering of rows by an integer key, as `ORDER BY key ASC|DESC` does.
    SQL leaves the order of equal keys unspecified; the insertion sort
    below happens to keep them in table order, and no contract relies on it. */
module Sorting {
  import opened Seqs

  datatype Direction = Ascending | Descending

  predicate InOrder(dir: Direction, a: int, b: int)
  {
    match dir
    case Ascending => a <= b
    case Descending => a >= b
  }

  predicate SortedBy<T>(xs: seq<T>, key: T -> int, dir: Direction)
  {
    forall i, j :: 0 <= i < j < |xs| ==> InOrder(dir, key(xs[i]), key(xs[j]))
  }

  /** Places `x` into the sorted sequence `xs`. */
  function Insert<T(==)>(x: T, xs: seq<T>, key: T -> int, dir: Direction): (r: seq<T>)
    requires SortedBy(xs, key, dir)
    ensures SortedBy(r, key, dir)
    ensures multiset(r) == multiset(xs) + multiset{x}
  {
    if |xs| == 0 then [x]
    else if InOrder(dir, key(x), key(xs[0])) then
      assert forall j :: 0 < j < |[x] + xs| ==> ([x] + xs)[j] == xs[j - 1];
      [x] + xs
    else
      var rest := Insert(x, xs[1..], key, dir);
      assert xs == [xs[0]] + xs[1..];
      assert forall k :: 0 <= k < |rest| ==> InOrder(dir, key(xs[0]), key(rest[k])) by {
        forall k | 0 <= k < |rest| ensures InOrder(dir, key(xs[0]), key(rest[k])) {
          assert rest[k] in multiset(rest);
          if rest[k] != x {
            assert rest[k] in multiset(xs[1..]);
            var j :| 0 <= j < |xs[1..]| && xs[1..][j] == rest[k];
            assert xs[j + 1] == rest[k];
          }
        }
      }
      ConsSorted(xs[0], rest, key, dir);
      [xs[0]] + rest
  }

  /** Putting in front of a sorted sequence an element that is in order with
      every element of it keeps it sorted. */
  lemma ConsSorted<T>(h: T, ys: seq<T>, key: T -> int, dir: Direction)
    requires SortedBy(ys, key, dir)
    requires forall k :: 0 <= k < |ys| ==> InOrder(dir, key(h), key(ys[k]))
    ensures SortedBy([h] + ys, key, dir)
  {
    forall i, j | 0 <= i < j < |[h] + ys|
      ensures InOrder(dir, key(([h] + ys)[i]), key(([h] + ys)[j]))
    {
      assert ([h] + ys)[j] == ys[j - 1];
      if i > 0 {
        assert ([h] + ys)[i] == ys[i - 1];
      }
    }
  }

  /** A sorted permutation of `xs`. */
  function SortBy<T(==)>(xs: seq<T>, key: T -> int, dir: Direction): (r: seq<T>)
    ensures SortedBy(r, key, dir)
    ensures multiset(r) == multiset(xs)
  {
    if |xs| == 0 then []
    else
      assert xs == [xs[0]] + xs[1..];
      Insert(xs[0], SortBy(xs[1..], key, dir), key, dir)
  }

  /** Taking elements out of a sorted sequence, in order, leaves it sorted:
      a filtered view of an ordered query result is still ordered. */
  lemma {:induction false} SubseqOfSorted<T>(xs: seq<T>, ys: seq<T>, key: T -> int, dir: Direction)
    requires IsSubseq(xs, ys)
    requires SortedBy(ys, key, dir)
    ensures SortedBy(xs, key, dir)
    decreases |ys|
  {
    if |xs| == 0 {
    } else if xs[0] == ys[0] {
      SubseqOfSorted(xs[1..], ys[1..], key, dir);
      SubseqElements(xs[1..], ys[1..]);
      forall i, j | 0 <= i < j < |xs|
        ensures InOrder(dir, key(xs[i]), key(xs[j]))
      {
        if i == 0 {
          assert xs[j] in xs[1..];
          var k :| 0 <= k < |ys[1..]| && ys[1..][k] == xs[j];
          assert ys[k + 1] == xs[j];
        } else {
          assert xs[i] == xs[1..][i - 1] && xs[j] == xs[1..][j - 1];
        }
      }
    } else {
      assert SortedBy(ys[1..], key, dir) by {
        forall i, j | 0 <= i < j < |ys[1..]|
          ensures InOrder(dir, key(ys[1..][i]), key(ys[1..][j]))
        {
          assert ys[1..][i] == ys[i + 1] && ys[1..][j] == ys[j + 1];
        }
      }
      SubseqOfSorted(xs, ys[1..], key, dir);
    }
  }
}

=== FILE: wrappers.dfy ===
/** Optional values and results with an error, used for lookups and for
    statements that the storage layer may reject. */
module Wrappers {

  datatype Option<+T> = None | Some(value: T)

  datatype Result<+T, +E> = Success(value: T) | Failure(error: E)
}
